=== FILE: README.md ===
# Turn-taking AI characters, modelled in Dafny

The repository runs conversations in which AI characters take turns. It has
two independent implementations, and this project models the deterministic
core of each.

**The two-character server (`server.py`).** A *character pair* owns
conversations. A *turn cycle* loads a conversation and generates a bounded
number of turns. Each turn:

- picks the speaker by the parity of the message count (character 1 on even, character 2 on odd, each with its own endpoint configuration);
- substitutes `{{char1}}`/`{{char2}}` in the global system prompt and in the speaker's definition;
- sends one system message holding the whole transcript;
- appends the reply as an assistant message and counts the turn.

A failed call or an empty, blank or "null" reply ends the cycle with an
error event. In that case nothing of the cycle is saved. Otherwise the
conversation is saved and a completion event reports its turn count. Around
the cycle sit:

- conversation creation, which may seed character 1's starting message;
- the choice of a fresh `name1_name2_N` folder for a new pair;
- the two listings: pairs newest first, conversations most recently updated first.

**The chat endpoint (`route.ts`).** It serves one turn for one speaker in a
multi-participant room:

- returns 404 for an unknown room and 400 for an unknown speaker;
- substitutes `{{char1}}` with the speaker's name and `{{charK+2}}` with the K-th other participant's name;
- appends the speaker's bio;
- projects the room's history onto the speaker's point of view: the speaker's own lines become assistant entries and everyone else's become user entries prefixed by a name;
- prepends the system prompt;
- once the completion finishes, writes exactly one assistant row.

How the outside world is modelled:

- The LLM is an oracle: a total function from the turn number to a reply. Fresh ids are indexed by the turn as well.
- The clock is indexed by the reading, not by the turn. Turn `k` reads it twice: reading `2k` stamps the message (server.py:494) and reading `2k+1` is the conversation's new modification time (server.py:498). Creating a conversation reads it up to four times.
- The data directory is a `Store` value of maps.
- The database query result is an input value.
- The event stream is a returned sequence.
- The in-memory conversation that the cycle mutates is a class. Its methods append in place.

Three facts about the code that the model keeps as they are:

- The completion event reports the conversation's cumulative turn count (server.py:512), not the number of turns generated. That count exceeds the turns asked for when a conversation is continued.
- Each placeholder is replaced in one left-to-right pass that never rescans inserted text. `{{char1}}` can therefore survive substitution when a name rebuilds the placeholder from template fragments (`ServerPrompt.PlaceholderRebuiltFromFragments`). The resolution lemmas therefore carry a condition on the names: no brace, and some character other than `c`, `h`, `a`, `r` and the digits. Ordinary names such as `Alice` meet it.
- The context separator (server.py:476) is the two characters backslash and `n`, not a newline.

## Model

| member | source | states |
|---|---|---|
| Text.ReplaceAll | server.py:205 | (definition) `str.replace` with a non-empty pattern: scanning left to right, each occurrence is replaced and the scan resumes after it; all other characters are copied |
| Text.ReplaceAllAbsent | server.py:203-205 | text holding no occurrence of the pattern is returned unchanged |
| Text.ReplaceAllOfPattern | server.py:205 | the pattern alone is replaced by the replacement, verbatim |
| Text.ReplaceAllResolves | server.py:205 | a replacement isolated from the pattern (no occurrence can start inside it or straddle its ends) leaves no occurrence behind, not even across an inserted boundary |
| Text.ReplaceAllKeepsAbsent | server.py:205 | replacing a pattern with a replacement isolated from another text creates no occurrence of that text when there was none |
| Text.ReplaceAllSplit | server.py:205 | when no occurrence straddles a cut, replacing the whole text equals replacing both pieces and concatenating |
| Text.Decimal | server.py:89 | (definition) the decimal spelling of a counter, as the f-string prints it |
| Text.DecimalInjective | server.py:89 | different counter values are spelled differently |
| ServerModels.Conversation.Create | server.py:363-370 | a new conversation has its ids and clock readings, no messages and turn count 0, and is consistent |
| ServerModels.Conversation.Load | server.py:160-168 | the loaded object holds exactly the stored record |
| ServerModels.Conversation.Append | server.py:496-498 | one message appended at the end, turn count up by one, modification time set, identity unchanged, consistency `turn_count == len(messages)` kept |
| ServerPrompt.ReplaceVariables | server.py:203-205 | (definition) `{{char1}}` replaced by the speaker's name, then `{{char2}}` in that result by the other name |
| ServerPrompt.ReplaceVariablesWithoutPlaceholders | server.py:203-205 | text with neither placeholder is returned unchanged |
| ServerPrompt.ReplaceVariablesResolves | server.py:203-205 | for names without braces that hold some character other than `c`, `h`, `a`, `r` and the digits (such as `Alice`), neither placeholder survives |
| ServerPrompt.ReplaceVariablesOrder | server.py:205 | `{{char1}}` is replaced first: a speaker name reading `{{char2}}` then becomes the other name |
| ServerPrompt.PlaceholderRebuiltFromFragments | server.py:205 | without conditions on the names, `{{c{{char1}}1}}` with the name `har` yields `{{char1}}` |
| ServerPrompt.Line | server.py:474 | (definition) `character: content` for one message |
| ServerPrompt.Lines | server.py:473-474 | one `character: content` line per message, in order |
| ServerPrompt.Join | server.py:476 | (definition) the parts joined with the two-character separator between consecutive parts |
| ServerPrompt.JoinAppend | server.py:476 | joining one more part adds one separator and that part at the end |
| ServerPrompt.Context | server.py:472-476 | (definition) system prompt, definition, start marker and one line per message, joined |
| ServerPrompt.ContextOfEmptyTranscript | server.py:472-476 | before any message the context is system prompt, definition and start marker joined by the separator |
| ServerPrompt.ContextExtends | server.py:472-476 | each further message adds exactly a separator and its line at the end |
| ServerPrompt.BuildContext | server.py:472-477 | the parts list grown message by message and joined equals the context of the transcript |
| TurnEngine.IsSpace | server.py:484 | (definition) the characters Python's `str.strip()` removes |
| TurnEngine.IsBlank | server.py:484 | (definition) `strip()` leaves nothing |
| TurnEngine.IsNullWord | server.py:484 | (definition) `lower()` gives `null`, without stripping; testing the ASCII letters is exact, as no other character lower-cases to `n`, `u` or `l` |
| TurnEngine.Rejected | server.py:484 | (definition) the content is missing, empty, blank or `null` in any case |
| TurnEngine.Speaker | server.py:459-466 | (definition) character 1 on an even message count, character 2 on an odd one |
| TurnEngine.Listener | server.py:459-466 | (definition) the other character of that turn |
| TurnEngine.ConfigFor | server.py:459-466 | (definition) configuration 1 on an even message count, configuration 2 on an odd one |
| TurnEngine.RequestFor | server.py:468-481 | (definition) the speaker's endpoint and model with one system message holding the context, both texts substituted with the speaker's and the listener's names |
| TurnEngine.Reply | server.py:488-494 | (definition) the assistant message of turn `k`: a fresh id, the reply, the speaker's name, the clock reading `2k` |
| TurnEngine.Advance | server.py:495-498 | (definition) the conversation with that message appended, one more turn counted and the clock reading `2k+1` as its modification time |
| TurnEngine.Step | server.py:457-506 | (definition) one turn on values: the speaker by parity, the request, then an error event or the message and the conversation after it |
| TurnEngine.RunTurns | server.py:454-506 | (definition) turns `k` to `n`, stopping at the first error |
| TurnEngine.Reached | server.py:454-506 | (definition) the conversation after the last accepted turn of a run |
| TurnEngine.Iterations | server.py:445-454 | (definition) the turns asked for, one fewer after a starting message, never negative |
| TurnEngine.Save | server.py:145-158 | (definition) the conversation written to its pair's folder and recorded as the pair's last conversation |
| TurnEngine.SaveChangesOnly | server.py:145-158 | saving changes only that conversation and that pair's last conversation; every other pair and conversation, both configurations and the system prompt stay as they were |
| TurnEngine.Stream | server.py:413-515 | (definition) the whole stream: three lookup errors, the run, and the save with the completion event only when no turn failed |
| TurnEngine.TakeTurn | server.py:457-506 | one iteration: the request, the streamed event and the conversation after it are those of the turn specification; the reply is refused exactly when it raised or is missing, empty, blank or "null", and a refused reply leaves the conversation object as it was |
| TurnEngine.GenerateTurns | server.py:454-506 | the loop over a loaded conversation produces exactly the events and requests of the turn specification; whether it completes or stops at an error, the object ends as the conversation after the last accepted turn, and on completion that is the finished conversation |
| TurnEngine.StartStream | server.py:413-515 | the whole stream, with its three lookup errors, the loop, the save and the completion event, equals the stream specification |
| TurnEngine.SpeakersAlternate | server.py:459-466 | whoever listened to one turn speaks the next |
| TurnEngine.RunTurnsShape | server.py:454-506 | one request per streamed event and at most one per budgeted turn; either every turn runs and only messages are streamed, or exactly one error event ends the run after the successful turns' messages |
| TurnEngine.RunTurnsSpeakers | server.py:459-498 | turn `i` uses configuration 1 and character 1's model when the message count is even, configuration 2 and character 2's otherwise; its message is an assistant message by that speaker with an accepted reply |
| TurnEngine.RunTurnsContexts | server.py:468-481 | the request of turn `i` is the single system message built from the stored messages followed by the messages of the earlier turns |
| TurnEngine.RunTurnsFinal | server.py:489-498 | a finished run ends with the start messages plus the streamed messages, one more turn counted per turn, the identity unchanged and consistency preserved |
| TurnEngine.RunTurnsReached | server.py:454-506 | the conversation after a run, finished or not, holds the stored messages followed by exactly the streamed ones, counts one more turn per streamed message, keeps its identity, and is the finished conversation when the run finished |
| TurnEngine.IterationsBound | server.py:445-454 | the loop runs at most `turns` times, `turns - 1` after a starting message, never a negative count |
| TurnEngine.StreamEnds | server.py:419-515 | every stream ends with exactly one completion or error event after its messages, sends at most `turns` requests, and an error leaves the store unchanged |
| TurnEngine.StreamCompletes | server.py:508-512 | a completed stream ran its whole budget and saved the loaded conversation under its own id with the streamed messages appended; it reports the saved turn count, which equals `turns` for a new conversation, and sets the pair's last conversation; every other pair and conversation, both configurations and the system prompt are unchanged |
| TurnEngine.Seeded | server.py:363-383 | (definition) the new conversation with fresh ids and clock readings, seeded with character 1's non-empty starting message |
| TurnEngine.Create | server.py:356-386 | (definition) a 404 for a missing pair, otherwise the seeded conversation saved |
| TurnEngine.SeededShape | server.py:363-383 | a new conversation is consistent with turn count 0, or, exactly when character 1 has a non-empty starting message, 1 with that message by character 1, so that character 2 speaks next |
| TurnEngine.CreateOutcome | server.py:356-386 | a missing pair is a 404 that writes nothing; otherwise the seeded conversation is stored under its fresh id and becomes the pair's last conversation, and nothing else in the store changes |
| TurnEngine.CreateConversation | server.py:356-386 | the endpoint's field-by-field seeding equals the creation specification |
| PairFolders.FolderName | server.py:85-89 | (definition) `name1_name2_N` |
| PairFolders.FolderNameInjective | server.py:85-89 | different counters give different folder names |
| PairFolders.NewPairFolder | server.py:83-95 | the `while True` loop terminates and returns `name1_name2_N` for an `N >= 1` whose folder does not exist while every smaller `N` is taken; the folder is then created |
| PairFolders.FirstFreeIsUnique | server.py:83-95 | that `N` is determined by the existing names |
| Listings.StrLt | server.py:143 | (definition) Python's `<` on strings: the first differing code point decides, and a proper prefix is smaller |
| Listings.StrLtIrreflexive | server.py:143 | no key sorts below itself, so Python's string order is strict |
| Listings.StrLtTotal | server.py:143 | Python's string order is total |
| Listings.StrLtTransitive | server.py:143 | Python's string order is transitive |
| Listings.SortDesc | server.py:143 | (definition) insertion sort on the key, newest first, equal keys in input order |
| Listings.SortDescCorrect | server.py:143 | the sort returns the same entries, each as often, with keys descending |
| Listings.PairRow | server.py:136-142 | (definition) the summary of one pair: id, name, creation time and the two character names |
| Listings.ConversationRow | server.py:182-187 | (definition) the summary of one conversation: id, creation and modification times and turn count |
| Listings.ListCharacterPairs | server.py:128-143 | (definition) one summary row per pair, sorted by `created_at` descending |
| Listings.ListConversations | server.py:170-189 | (definition) one summary row per conversation of an existing folder, sorted by `updated_at` descending |
| Listings.ListCharacterPairsCorrect | server.py:128-143 | one summary per pair, newest `created_at` first |
| Listings.ListConversationsCorrect | server.py:170-189 | one summary per conversation, latest `updated_at` first; an unknown pair lists nothing |
| ChatRoute.FindSpeaker | ai-agent-platform/src/app/api/chat/route.ts:36-38 | (definition) `find` on the participants by identity id, then its identity |
| ChatRoute.FindSpeakerFirst | ai-agent-platform/src/app/api/chat/route.ts:36-42 | the speaker is found exactly when some participant has the id, and is then the first such participant's identity |
| ChatRoute.Others | ai-agent-platform/src/app/api/chat/route.ts:44-46 | `filter` out the speaker's id, then `map` to identities: never more identities than participants, and as many exactly when no participant is the speaker |
| ChatRoute.OthersWithoutSpeaker | ai-agent-platform/src/app/api/chat/route.ts:44-46 | without the speaker every participant is kept, in join order |
| ChatRoute.OthersRemoveSpeaker | ai-agent-platform/src/app/api/chat/route.ts:44-46 | with exactly one speaker entry, the others are the participants before it followed by those after it |
| ChatRoute.PromptText | ai-agent-platform/src/app/api/chat/route.ts:50-53 | (definition) the scenario with `{{char1}}` replaced by the speaker's name, then the others substituted |
| ChatRoute.SubstOthers | ai-agent-platform/src/app/api/chat/route.ts:56-61 | (definition) `{{charK+2}}` replaced by the K-th other participant's name, for K in order |
| ChatRoute.SystemPrompt | ai-agent-platform/src/app/api/chat/route.ts:64 | (definition) the substituted prompt, the character-definition header and the bio |
| ChatRoute.BuildSystemPrompt | ai-agent-platform/src/app/api/chat/route.ts:50-64 | the reassigned prompt equals `{{char1}}` substituted first, then `{{charK+2}}` for each other participant in order, then the header and the bio |
| ChatRoute.Placeholder | ai-agent-platform/src/app/api/chat/route.ts:60 | (definition) the template literal `{{charN}}` |
| ChatRoute.PlaceholderDistinct | ai-agent-platform/src/app/api/chat/route.ts:55-61 | no placeholder occurs inside a placeholder with another index |
| ChatRoute.ReplaceAllAroundPlaceholder | ai-agent-platform/src/app/api/chat/route.ts:60 | replacing one placeholder leaves a placeholder with another index in place and substitutes the text on either side of it independently |
| ChatRoute.SubstOthersAround | ai-agent-platform/src/app/api/chat/route.ts:56-61 | the same holds for the whole loop over the others, for an index none of them uses |
| ChatRoute.UnusedPlaceholderKept | ai-agent-platform/src/app/api/chat/route.ts:52-61 | a placeholder whose index is 0 or above the number of participants stays in place anywhere in the scenario: the prompt is the substituted text before it, the placeholder, and the substituted text after it |
| ChatRoute.SpeakerSubstitutedFirst | ai-agent-platform/src/app/api/chat/route.ts:52-61 | `{{char1}}` is substituted before the others: a speaker named `{{char2}}` ends up as the other participant's name |
| ChatRoute.ParticipantPlaceholdersResolved | ai-agent-platform/src/app/api/chat/route.ts:52-61 | for names without braces that hold some character other than `c`, `h`, `a`, `r` and the digits (such as `Alice`), none of `{{char1}}` to `{{charN+1}}` remains |
| ChatRoute.PromptExample | ai-agent-platform/src/app/api/chat/route.ts:50-61 | "You are {{char1}}. Other: {{char2}}." for speaker Bob and other participant Alice is "You are Bob. Other: Alice." |
| ChatRoute.Entry | ai-agent-platform/src/app/api/chat/route.ts:69-83 | (definition) one stored message as the speaker sees it |
| ChatRoute.Project | ai-agent-platform/src/app/api/chat/route.ts:68-84 | (definition) `map` of `Entry` over the history |
| ChatRoute.ProjectEntries | ai-agent-platform/src/app/api/chat/route.ts:68-84 | one entry per stored message, in order; assistant exactly for the speaker's own messages with verbatim content, otherwise user with the sender's name or "User" as prefix |
| ChatRoute.EntryPerspective | ai-agent-platform/src/app/api/chat/route.ts:69-83 | the same message is an assistant entry for its author and a user entry for anyone else |
| ChatRoute.EntryEndsWithContent | ai-agent-platform/src/app/api/chat/route.ts:73-81 | every entry's content ends with the stored content |
| ChatRoute.ProjectExample | ai-agent-platform/src/app/api/chat/route.ts:68-84 | Alice's "Hi" then Bob's "Hello", seen by Bob, are a user "Alice: Hi" and an assistant "Hello" |
| ChatRoute.Respond | ai-agent-platform/src/app/api/chat/route.ts:13-94 | (definition) the response on values: 404, 400, or the model and the system entry followed by the projected history |
| ChatRoute.Post | ai-agent-platform/src/app/api/chat/route.ts:13-94 | the endpoint's lookups, prompt loop, projection and prepend equal the response specification |
| ChatRoute.RespondShape | ai-agent-platform/src/app/api/chat/route.ts:31-94 | 404 exactly for an unknown room, 400 exactly for a speaker who is not a participant; otherwise the model is fixed, the system entry comes first, the list has one more entry than the history, and the system prompt ends with the header and the bio |
| ChatRoute.FinishedRow | ai-agent-platform/src/app/api/chat/route.ts:109-117 | (definition) the row `onFinish` inserts |
| ChatRoute.Exchange | ai-agent-platform/src/app/api/chat/route.ts:96-121 | (definition) the rows after one request, given whether the completion finished and the insert succeeded |
| ChatRoute.ExchangeWrites | ai-agent-platform/src/app/api/chat/route.ts:103-121 | a refused request writes nothing; otherwise exactly one row is written when the completion finished and the insert succeeded: the full text as a non-user assistant message of the speaker in the room; a failed insert leaves the table as it was |
| JsReplace.Expand | ai-agent-platform/src/app/api/chat/route.ts:53 | (definition) `GetSubstitution` of ECMAScript: `$$`, `$&`, dollar-backtick and `$'` expanded, anything else copied |
| JsReplace.JsReplaceAll | ai-agent-platform/src/app/api/chat/route.ts:53-61 | (definition) `String.prototype.replaceAll` with a string pattern and a string replacement |
| JsReplace.ExpandLiteral | ai-agent-platform/src/app/api/chat/route.ts:53 | a replacement without a dollar sign is inserted as written |
| JsReplace.JsReplaceAllLiteral | ai-agent-platform/src/app/api/chat/route.ts:53-61 | for names without a dollar sign, `replaceAll` equals the literal replace-all the model uses |
| JsReplace.DollarNameKeepsPlaceholder | ai-agent-platform/src/app/api/chat/route.ts:53 | the speaker name `A$&B` turns `{{char1}}` into `A{{char1}}B`, where the literal replace-all gives `A$&B` |

## Left out

- Disk and database I/O are left out: JSON files, folder scans, `shutil.rmtree`, Prisma queries and inserts. Their results are inputs (`Store`, the rooms map), and their effects are the returned store or rows.
- The HTTP call to the LLM is left out: `call_llm_api`, httpx, the timeouts, temperature 0.85 and 0.7, `max_tokens`, the NVIDIA base URL and key, token streaming. Each call is one oracle reply: raised, or a possibly missing content.
- `uuid4` and `datetime.now` become the oracle's `freshId` and `clock`. Ids are indexed by the turn. Clock readings are indexed by the order of reading: two per turn, and up to four when a conversation is created.
- The default `turns: int = 10` (server.py:414) is left out: the model takes `turns` as a parameter, and a caller without it passes 10.
- The SSE text encoding (`data: ...` JSON lines) and `asyncio.sleep` are left out. Events are values of the `Event` datatype.
- The outer `except Exception` is modelled only for the missing-conversation 404. Failures while saving, and malformed stored data, are not modelled.
- `find_character_pair_path` is not modelled as a scan. The store maps pair ids to pairs directly. The `conversations` subfolder created beside a new pair folder is not modelled.
- The other endpoints are not part of this model: pair create/update/delete, the system prompt and the API configs, model listing, conversation get/delete.
- Listings.SortDescCorrect: does not prove stability (equal keys keep directory order), although `InsertDesc` inserts stably as `sorted(..., reverse=True)` does. The directory order itself is an input.
- `req.json()` fields that are missing or are not strings are not modelled. `roomId` and `nextSpeakerId` are strings.
- Concurrent cycles on one conversation or room, client cancellation, and serverless termination during `onFinish` are not modelled.
- ChatRoute.PromptText: inserts names verbatim, the evidently intended behaviour. The `$` expansion that `replaceAll` performs on names as written is modelled separately in `JsReplace` (see Findings).
- ChatRoute.SubstOthers: inserts names verbatim, the evidently intended behaviour. The `$` expansion that `replaceAll` performs on names as written is modelled separately in `JsReplace` (see Findings).
- ChatRoute.SystemPrompt: inherits the verbatim insertion of `PromptText`, the evidently intended behaviour. The `$` expansion that `replaceAll` performs on names as written is modelled separately in `JsReplace` (see Findings).
- ChatRoute.BuildSystemPrompt: inserts names verbatim, the evidently intended behaviour. The `$` expansion that `replaceAll` performs on names as written is modelled separately in `JsReplace` (see Findings).
- ChatRoute.Respond: builds its system prompt with the same verbatim insertion, so `$` expansion is not part of it (see Findings).
- ChatRoute.Post: equals `Respond`, so it too inserts names verbatim rather than with `$` expansion (see Findings).

## Findings

| source | as written | input that shows it | evidently intended | confidence | as-written member | corrected member |
|---|---|---|---|---|---|---|
| ai-agent-platform/src/app/api/chat/route.ts:53-61 | participant names are passed as the replacement string of `replaceAll`, which expands `$$`, `$&`, `$'` and dollar-backtick patterns | scenario `{{char1}}`, speaker named `A$&B`: the prompt becomes `A{{char1}}B`, and the placeholder survives | each placeholder replaced by the participant's name verbatim, so that names without braces and with some character other than `c`, `h`, `a`, `r` and the digits leave no placeholder | high, not executed | JsReplace.DollarNameKeepsPlaceholder | ChatRoute.ParticipantPlaceholdersResolved |

=== FILE: chat_route.dfy ===
/** The single-turn chat endpoint of the multi-character platform
    (route.ts): find the room and the speaker, substitute the scenario's
    placeholders with the participants' names, append the speaker's bio,
    project the room's history onto the speaker's point of view, and, once
    the completion is finished, describe the one message row to persist.
    The database query result is an input value; the model call and the
    row write are the outcomes `completion` and `writeOk`. */
module ChatRoute {
  import opened Wrappers
  import opened Text

  datatype Identity = Identity(id: string, name: string, bio: string)

  /** A room participant with its identity, as the query includes it. */
  datatype Participant = Participant(identityId: string, identity: Identity)

  /** A stored message; its identity may be missing. */
  datatype StoredMessage = StoredMessage(identityId: Option<string>, content: string, identity: Option<Identity>)

  /** A room with its participants in join order and its messages in
      creation order. */
  datatype Room = Room(id: string, scenario: string, participants: seq<Participant>, messages: seq<StoredMessage>)

  datatype Role = System | User | Assistant

  datatype ChatEntry = ChatEntry(role: Role, content: string)

  /** What is handed to the streaming call. */
  datatype ChatRequest = ChatRequest(model: string, messages: seq<ChatEntry>)

  /** A plain-text error response. */
  datatype Refusal = Refusal(status: int, body: string)

  /** The row written when the completion finishes. */
  datatype MessageRow = MessageRow(content: string, role: string, roomId: string, identityId: string, isUser: bool)

  const ModelName: string := "deepseek-ai/deepseek-v3.1-terminus"
  const BioHeader: string := "\n\nYour Character Definition:\n"

  /** The identity of the first participant whose id is `speakerId`. */
  function FindSpeaker(ps: seq<Participant>, speakerId: string): (r: Option<Identity>)
    decreases |ps|
  {
    if ps == [] then None
    else if ps[0].identityId == speakerId then Some(ps[0].identity)
    else FindSpeaker(ps[1..], speakerId)
  }

  /** The speaker is found exactly when some participant has its id, and it
      is then the identity of the first such participant. */
  lemma {:induction false} FindSpeakerFirst(ps: seq<Participant>, speakerId: string)
    ensures FindSpeaker(ps, speakerId).Some? <==> exists i :: 0 <= i < |ps| && ps[i].identityId == speakerId
    ensures FindSpeaker(ps, speakerId).Some? ==>
      exists i :: 0 <= i < |ps| && ps[i].identityId == speakerId &&
                  FindSpeaker(ps, speakerId).value == ps[i].identity &&
                  (forall j :: 0 <= j < i ==> ps[j].identityId != speakerId)
    decreases |ps|
  {
    if ps != [] && ps[0].identityId != speakerId {
      FindSpeakerFirst(ps[1..], speakerId);
      if FindSpeaker(ps, speakerId).Some? {
        var i :| 0 <= i < |ps[1..]| && ps[1..][i].identityId == speakerId &&
                 FindSpeaker(ps[1..], speakerId).value == ps[1..][i].identity &&
                 (forall j :: 0 <= j < i ==> ps[1..][j].identityId != speakerId);
        assert ps[i + 1].identityId == speakerId;
        forall j | 0 <= j < i + 1
          ensures ps[j].identityId != speakerId
        {
          if j > 0 {
            assert ps[j] == ps[1..][j - 1];
          }
        }
      }
      if exists i :: 0 <= i < |ps| && ps[i].identityId == speakerId {
        var i :| 0 <= i < |ps| && ps[i].identityId == speakerId;
        assert ps[1..][i - 1].identityId == speakerId;
      }
    }
  }

  /** The identities of the participants other than the speaker, in join
      order: every participant is kept exactly when none of them is the
      speaker. */
  function Others(ps: seq<Participant>, speakerId: string): (r: seq<Identity>)
    ensures |r| <= |ps|
    ensures |r| == |ps| <==> forall j :: 0 <= j < |ps| ==> ps[j].identityId != speakerId
    decreases |ps|
  {
    if ps == [] then []
    else (if ps[0].identityId != speakerId then [ps[0].identity] else []) + Others(ps[1..], speakerId)
  }

  function Identities(ps: seq<Participant>): (r: seq<Identity>)
    ensures |r| == |ps| && forall i :: 0 <= i < |ps| ==> r[i] == ps[i].identity
    decreases |ps|
  {
    if ps == [] then [] else [ps[0].identity] + Identities(ps[1..])
  }

  /** Without the speaker among them, every participant is another one, in
      order. */
  lemma {:induction false} OthersWithoutSpeaker(ps: seq<Participant>, speakerId: string)
    requires forall j :: 0 <= j < |ps| ==> ps[j].identityId != speakerId
    ensures Others(ps, speakerId) == Identities(ps)
    decreases |ps|
  {
    if ps != [] {
      OthersWithoutSpeaker(ps[1..], speakerId);
    }
  }

  /** When exactly one participant is the speaker, the others are everyone
      before it followed by everyone after it. */
  lemma {:induction false} OthersRemoveSpeaker(ps: seq<Participant>, speakerId: string, k: nat)
    requires k < |ps| && ps[k].identityId == speakerId
    requires forall j :: 0 <= j < |ps| && j != k ==> ps[j].identityId != speakerId
    ensures Others(ps, speakerId) == Identities(ps[..k]) + Identities(ps[k + 1..])
    decreases |ps|
  {
    if k == 0 {
      assert ps[1..] == ps[k + 1..];
      OthersWithoutSpeaker(ps[1..], speakerId);
      assert ps[..0] == [];
    } else {
      var rest := ps[1..];
      forall j | 0 <= j < |rest| && j != k - 1
        ensures rest[j].identityId != speakerId
      {
        assert rest[j] == ps[j + 1];
      }
      OthersRemoveSpeaker(rest, speakerId, k - 1);
      assert rest[..k - 1] == ps[1..k];
      assert rest[k..] == ps[k + 1..];
      OthersAfterFirst(ps, speakerId, k);
    }
  }

  /** The step of `OthersRemoveSpeaker` past a first participant who is not
      the speaker. */
  lemma OthersAfterFirst(ps: seq<Participant>, speakerId: string, k: nat)
    requires 0 < k < |ps| && ps[0].identityId != speakerId
    requires Others(ps[1..], speakerId) == Identities(ps[1..k]) + Identities(ps[k + 1..])
    ensures Others(ps, speakerId) == Identities(ps[..k]) + Identities(ps[k + 1..])
  {
    IdentitiesCons(ps, k);
    PrependAssoc(ps[0].identity, Others(ps, speakerId), Others(ps[1..], speakerId),
                 Identities(ps[1..k]), Identities(ps[k + 1..]), Identities(ps[..k]));
  }

  lemma IdentitiesCons(ps: seq<Participant>, k: nat)
    requires 0 < k <= |ps|
    ensures Identities(ps[..k]) == [ps[0].identity] + Identities(ps[1..k])
  {
    assert ps[..k][1..] == ps[1..k];
  }

  lemma PrependAssoc<T>(x: T, whole: seq<T>, tail: seq<T>, front: seq<T>, back: seq<T>, first: seq<T>)
    requires whole == [x] + tail && tail == front + back && first == [x] + front
    ensures whole == first + back
  {
  }

  /** `{{charN}}`. */
  function Placeholder(n: nat): (p: string)
    ensures |p| == 8 + |Decimal(n)|
  {
    "{{char" + Decimal(n) + "}}"
  }

  /** The placeholders, then the placeholders 2, 3, ... in turn, each
      replaced by the name of the next other participant. */
  function SubstOthers(text: string, others: seq<Identity>): string
    decreases |others|
  {
    if others == [] then text
    else ReplaceAll(SubstOthers(text, others[..|others| - 1]), Placeholder(|others| + 1), others[|others| - 1].name)
  }

  /** The scenario after all substitutions: `{{char1}}` first, then the others. */
  function PromptText(scenario: string, speaker: Identity, others: seq<Identity>): string
  {
    SubstOthers(ReplaceAll(scenario, Placeholder(1), speaker.name), others)
  }

  /** The full system prompt: substituted scenario, header, bio. */
  function SystemPrompt(scenario: string, speaker: Identity, others: seq<Identity>): string
  {
    PromptText(scenario, speaker, others) + BioHeader + speaker.bio
  }

  /** The prompt as the endpoint builds it: one reassignment for the
      speaker, then one per other participant, in order. */
  method BuildSystemPrompt(scenario: string, speaker: Identity, others: seq<Identity>) returns (prompt: string)
    ensures prompt == SystemPrompt(scenario, speaker, others)
  {
    var systemPrompt := scenario;
    systemPrompt := ReplaceAll(systemPrompt, Placeholder(1), speaker.name);
    ghost var first := systemPrompt;
    for index := 0 to |others|
      invariant systemPrompt == SubstOthers(first, others[..index])
    {
      assert others[..index + 1][..index] == others[..index];
      systemPrompt := ReplaceAll(systemPrompt, Placeholder(index + 2), others[index].name);
    }
    assert others[..|others|] == others;
    prompt := systemPrompt + BioHeader + speaker.bio;
  }

  /** A placeholder opens with `{{char`, spells its index in digits and
      closes with `}}`; no other position holds a brace. */
  lemma PlaceholderShape(n: nat)
    ensures Placeholder(n)[..6] == "{{char"
    ensures forall i :: 0 <= i < |Decimal(n)| ==> Placeholder(n)[6 + i] == Decimal(n)[i]
    ensures forall k :: 2 <= k < |Placeholder(n)| ==> Placeholder(n)[k] != '{'
    ensures forall k :: 0 <= k < |Placeholder(n)| - 2 ==> Placeholder(n)[k] != '}'
    ensures Placeholder(n)[|Placeholder(n)| - 2] == '}' && Placeholder(n)[|Placeholder(n)| - 1] == '}'
  {
    var p, d := Placeholder(n), Decimal(n);
    forall k | 0 <= k < |p|
      ensures 2 <= k ==> p[k] != '{'
      ensures k < |p| - 2 ==> p[k] != '}'
    {
      if k >= 6 && k < 6 + |d| {
        assert p[k] == d[k - 6];
      }
    }
  }

  /** Different placeholders never occur inside each other. */
  lemma PlaceholderDistinct(m: nat, j: nat)
    requires m != j
    ensures !Contains(Placeholder(m), Placeholder(j))
  {
    var pm, pj := Placeholder(m), Placeholder(j);
    var dm, dj := Decimal(m), Decimal(j);
    PlaceholderShape(m);
    PlaceholderShape(j);
    forall x: nat
      ensures !OccursAt(pm, pj, x)
    {
      if x + |pj| <= |pm| {
        if x == 0 {
          if |dj| < |dm| {
            assert pm[6 + |dj|] == dm[|dj|];
            assert pj[6 + |dj|] == '}';
            assert pm[..|pj|][6 + |dj|] != pj[6 + |dj|];
          } else if pm[..|pj|] == pj {
            assert |dj| == |dm|;
            assert dm == pm[6..6 + |dm|] == pj[6..6 + |dj|] == dj;
            DecimalInjective(m, j);
            assert false;
          }
        } else {
          assert pm[x..x + |pj|][1] == pm[x + 1] != '{';
        }
      }
    }
  }

  /** An occurrence of `q` that starts in `x` and ends in `y` matches the
      start of `y` against `q` and the end of `x` against `q`. */
  lemma AcrossFront(x: string, y: string, xy: string, q: string, i: nat)
    requires xy == x + y && i < |x| < i + |q|
    ensures OccursAt(xy, q, i) ==>
      (|y| >= 1 ==> q[|x| - i] == y[0]) &&
      (|y| >= 2 && |x| - i + 1 < |q| ==> q[|x| - i + 1] == y[1]) &&
      (|x| - i >= 2 ==> q[|x| - i - 2] == x[|x| - 2]) &&
      q[0] == x[i] && (i + 1 < |x| ==> q[1] == x[i + 1])
  {
    if OccursAt(xy, q, i) {
      assert xy[i..i + |q|] == q;
      if |y| >= 1 {
        assert q[|x| - i] == xy[|x|] == y[0];
      }
      if |y| >= 2 && |x| - i + 1 < |q| {
        assert q[|x| - i + 1] == xy[|x| + 1] == y[1];
      }
      assert q[0] == xy[i];
    }
  }

  /** No placeholder occurrence starts before a placeholder and ends inside
      or after it. */
  lemma NoneAcrossStart(a: string, tail: string, whole: string, m: nat, j: nat)
    requires whole == a + tail && |tail| >= |Placeholder(m)| && tail[..|Placeholder(m)|] == Placeholder(m)
    ensures forall x: nat :: x < |a| < x + |Placeholder(j)| ==> !OccursAt(whole, Placeholder(j), x)
  {
    var pm, pj := Placeholder(m), Placeholder(j);
    PlaceholderShape(m);
    PlaceholderShape(j);
    assert tail[0] == pm[0] && tail[1] == pm[1];
    forall x: nat | x < |a| < x + |pj|
      ensures !OccursAt(whole, pj, x)
    {
      AcrossFront(a, tail, whole, pj, x);
    }
  }

  /** No occurrence of another placeholder starts inside a placeholder and
      ends after it. */
  lemma NoneAcrossEnd(pm: string, b: string, tail: string, m: nat, j: nat)
    requires pm == Placeholder(m) && tail == pm + b
    ensures forall x: nat :: x < |pm| < x + |Placeholder(j)| ==> !OccursAt(tail, Placeholder(j), x)
  {
    var pj := Placeholder(j);
    PlaceholderShape(m);
    PlaceholderShape(j);
    forall x: nat | x < |pm| < x + |pj|
      ensures !OccursAt(tail, pj, x)
    {
      AcrossFront(pm, b, tail, pj, x);
    }
  }

  /** Replacing the placeholder `{{charJ}}` leaves a different placeholder
      `{{charM}}` in place and treats the text on either side of it on its
      own: no occurrence of `{{charJ}}` straddles either end of `{{charM}}`. */
  lemma ReplaceAllAroundPlaceholder(a: string, b: string, m: nat, j: nat, rep: string)
    requires m != j
    ensures ReplaceAll(a + Placeholder(m) + b, Placeholder(j), rep) ==
            ReplaceAll(a, Placeholder(j), rep) + Placeholder(m) + ReplaceAll(b, Placeholder(j), rep)
  {
    var pm, pj := Placeholder(m), Placeholder(j);
    var tail := pm + b;
    var whole := a + tail;
    assert whole == a + pm + b;
    assert tail[..|pm|] == pm;
    NoneAcrossStart(a, tail, whole, m, j);
    ReplaceAllSplit(a, tail, whole, pj, rep);
    NoneAcrossEnd(pm, b, tail, m, j);
    ReplaceAllSplit(pm, b, tail, pj, rep);
    PlaceholderDistinct(m, j);
    ReplaceAllAbsent(pm, pj, rep);
    assert ReplaceAll(a, pj, rep) + (pm + ReplaceAll(b, pj, rep)) == ReplaceAll(a, pj, rep) + pm + ReplaceAll(b, pj, rep);
  }

  /** The substitutions of the other participants pass a placeholder none
      of them owns through, and act on the text around it independently. */
  lemma {:induction false} SubstOthersAround(a: string, b: string, m: nat, others: seq<Identity>)
    requires m == 0 || m > |others| + 1
    ensures SubstOthers(a + Placeholder(m) + b, others) ==
            SubstOthers(a, others) + Placeholder(m) + SubstOthers(b, others)
    decreases |others|
  {
    if others != [] {
      var init := others[..|others| - 1];
      SubstOthersAround(a, b, m, init);
      ReplaceAllAroundPlaceholder(SubstOthers(a, init), SubstOthers(b, init), m, |others| + 1, others[|others| - 1].name);
    }
  }

  /** A placeholder whose index is neither 1 nor that of another participant
      comes through the substitutions unchanged wherever it stands in the
      scenario, and the text around it is substituted as if it were not
      there. */
  lemma UnusedPlaceholderKept(a: string, b: string, m: nat, speaker: Identity, others: seq<Identity>)
    requires m == 0 || m > |others| + 1
    ensures PromptText(a + Placeholder(m) + b, speaker, others) ==
            PromptText(a, speaker, others) + Placeholder(m) + PromptText(b, speaker, others)
    ensures Contains(PromptText(a + Placeholder(m) + b, speaker, others), Placeholder(m))
  {
    var p1 := Placeholder(1);
    ReplaceAllAroundPlaceholder(a, b, m, 1, speaker.name);
    SubstOthersAround(ReplaceAll(a, p1, speaker.name), ReplaceAll(b, p1, speaker.name), m, others);
    var before, pm := PromptText(a, speaker, others), Placeholder(m);
    var whole := PromptText(a + pm + b, speaker, others);
    assert whole[|before|..|before| + |pm|] == pm;
    assert OccursAt(whole, pm, |before|);
  }

  /** `{{char1}}` is substituted before the others: a speaker whose name is
      `{{char2}}` ends up called by the other participant's name. */
  lemma SpeakerSubstitutedFirst(speaker: Identity, other: Identity)
    requires speaker.name == Placeholder(2)
    ensures PromptText(Placeholder(1), speaker, [other]) == other.name
  {
    ReplaceAllOfPattern(Placeholder(1), speaker.name);
    var first := ReplaceAll(Placeholder(1), Placeholder(1), speaker.name);
    assert [other][..0] == [];
    assert SubstOthers(first, [other]) == ReplaceAll(SubstOthers(first, []), Placeholder(2), other.name);
    ReplaceAllOfPattern(Placeholder(2), other.name);
  }

  /** A safe name never overlaps a placeholder it does not replace. */
  lemma PlaceholderIsolated(name: string, n: nat)
    requires SafeName(name)
    ensures Isolated(name, Placeholder(n))
  {
    var d := Decimal(n);
    var body := "char" + d;
    assert Placeholder(n) == "{{" + body + "}}";
    forall i | 0 <= i < |body|
      ensures body[i] in PlaceholderBodyChars
    {
      if i < 4 {
        assert body[i] == PlaceholderBodyChars[i];
      } else {
        var c := d[i - 4];
        assert body[i] == c;
        assert c == PlaceholderBodyChars[4 + (c as int - '0' as int)];
      }
    }
    BracedIsolated(name, body);
  }

  /** With names that hold no brace and some character found in no
      placeholder, such as "Alice", no placeholder of a participant,
      `{{char1}}` up to `{{charN+1}}`, survives in the prompt. */
  lemma {:induction false} ParticipantPlaceholdersResolved(scenario: string, speaker: Identity, others: seq<Identity>, m: nat)
    requires SafeName(speaker.name)
    requires forall k :: 0 <= k < |others| ==> SafeName(others[k].name)
    requires 1 <= m <= |others| + 1
    ensures !Contains(PromptText(scenario, speaker, others), Placeholder(m))
    decreases |others|
  {
    var first := ReplaceAll(scenario, Placeholder(1), speaker.name);
    if others == [] {
      PlaceholderIsolated(speaker.name, 1);
      ReplaceAllResolves(scenario, Placeholder(1), speaker.name);
    } else {
      var init, last := others[..|others| - 1], others[|others| - 1];
      var before := SubstOthers(first, init);
      PlaceholderIsolated(last.name, m);
      if m == |others| + 1 {
        ReplaceAllResolves(before, Placeholder(m), last.name);
      } else {
        ParticipantPlaceholdersResolved(scenario, speaker, init, m);
        assert PromptText(scenario, speaker, init) == before;
        ReplaceAllKeepsAbsent(before, Placeholder(|others| + 1), last.name, Placeholder(m));
      }
    }
  }

  lemma SmallPlaceholders()
    ensures Placeholder(1) == "{{char1}}" && Placeholder(2) == "{{char2}}"
  {
    assert Digit(1) == '1' && Digit(2) == '2';
    assert Decimal(1) == "1" && Decimal(2) == "2";
  }

  /** `{{char2}}.` holds no `{{char1}}`. */
  lemma ExampleTailKept()
    ensures ReplaceAll(Placeholder(2) + ".", Placeholder(1), "Bob") == Placeholder(2) + "."
  {
    var p1, tail := Placeholder(1), Placeholder(2) + ".";
    SmallPlaceholders();
    assert tail[..9] != p1;
    assert tail[1..][..9] != p1;
    assert tail[1..][1..] == "char2}}." + [];
    ReplaceAllSkip("char2}}.", [], p1, "Bob");
  }

  /** The first substitution of the worked example, part by part. */
  lemma ExampleSpeakerStep()
    ensures ReplaceAll("You are " + (Placeholder(1) + (". Other: " + (Placeholder(2) + "."))), Placeholder(1), "Bob") ==
            "You are " + ("Bob" + (". Other: " + (Placeholder(2) + ".")))
  {
    var p1, p2 := Placeholder(1), Placeholder(2);
    SmallPlaceholders();
    var rest := ". Other: " + (p2 + ".");
    ReplaceAllSkip("You are ", p1 + rest, p1, "Bob");
    ReplaceAllAtPattern(p1, rest, "Bob");
    ReplaceAllSkip(". Other: ", p2 + ".", p1, "Bob");
    ExampleTailKept();
  }

  /** The second substitution of the worked example, part by part. */
  lemma ExampleOtherStep()
    ensures ReplaceAll("You are Bob. Other: " + (Placeholder(2) + "."), Placeholder(2), "Alice") ==
            "You are Bob. Other: " + ("Alice" + ".")
  {
    var p2 := Placeholder(2);
    SmallPlaceholders();
    ReplaceAllSkip("You are Bob. Other: ", p2 + ".", p2, "Alice");
    ReplaceAllAtPattern(p2, ".", "Alice");
    assert ReplaceAll(".", p2, "Alice") == ".";
  }

  lemma ExampleScenarioParts()
    ensures "You are {{char1}}. Other: {{char2}}." == "You are " + (Placeholder(1) + (". Other: " + (Placeholder(2) + ".")))
    ensures "You are " + ("Bob" + (". Other: " + (Placeholder(2) + "."))) == "You are Bob. Other: " + (Placeholder(2) + ".")
    ensures "You are Bob. Other: " + ("Alice" + ".") == "You are Bob. Other: Alice."
  {
    SmallPlaceholders();
  }

  /** The worked example: "You are {{char1}}. Other: {{char2}}." for the
      speaker Bob with Alice as the other participant. */
  lemma PromptExample(bob: Identity, alice: Identity)
    requires bob.name == "Bob" && alice.name == "Alice"
    ensures PromptText("You are {{char1}}. Other: {{char2}}.", bob, [alice]) == "You are Bob. Other: Alice."
  {
    var p2 := Placeholder(2);
    ExampleScenarioParts();
    ExampleSpeakerStep();
    var first := "You are Bob. Other: " + (p2 + ".");
    assert [alice][..0] == [];
    assert SubstOthers(first, [alice]) == ReplaceAll(SubstOthers(first, []), p2, "Alice");
    ExampleOtherStep();
  }

  /** One history entry as the speaker sees it. */
  function Entry(m: StoredMessage, speakerId: string): ChatEntry
  {
    if m.identityId == Some(speakerId) then ChatEntry(Assistant, m.content)
    else
      var senderName := if m.identity.Some? then m.identity.value.name else "User";
      ChatEntry(User, senderName + ": " + m.content)
  }

  /** The history projected onto the speaker's point of view. */
  function Project(ms: seq<StoredMessage>, speakerId: string): (r: seq<ChatEntry>)
    decreases |ms|
  {
    if ms == [] then [] else [Entry(ms[0], speakerId)] + Project(ms[1..], speakerId)
  }

  /** One entry per stored message, in order: the speaker's own messages are
      assistant entries with the content verbatim, everyone else's are user
      entries prefixed with the sender's name, or "User" without one. */
  lemma {:induction false} ProjectEntries(ms: seq<StoredMessage>, speakerId: string)
    ensures |Project(ms, speakerId)| == |ms|
    ensures forall i :: 0 <= i < |ms| ==>
      var e := Project(ms, speakerId)[i];
      (e.role == Assistant <==> ms[i].identityId == Some(speakerId)) &&
      e.role != System &&
      (e.role == Assistant ==> e.content == ms[i].content) &&
      (e.role == User ==>
        e.content == (if ms[i].identity.Some? then ms[i].identity.value.name else "User") + ": " + ms[i].content)
    decreases |ms|
  {
    if ms != [] {
      ProjectEntries(ms[1..], speakerId);
      forall i | 1 <= i < |ms|
        ensures Project(ms, speakerId)[i] == Project(ms[1..], speakerId)[i - 1]
        ensures ms[i] == ms[1..][i - 1]
      {
      }
    }
  }

  /** The same message is an assistant entry for its author and a user entry
      for anyone else. */
  lemma EntryPerspective(m: StoredMessage, author: string, other: string)
    requires m.identityId == Some(author) && other != author
    ensures Entry(m, author) == ChatEntry(Assistant, m.content)
    ensures Entry(m, other).role == User
  {
  }

  /** Every entry's content ends with the stored content. */
  lemma EntryEndsWithContent(m: StoredMessage, speakerId: string)
    ensures var c := Entry(m, speakerId).content;
      |c| >= |m.content| && c[|c| - |m.content|..] == m.content
  {
  }

  /** The worked example: Alice said "Hi", then Bob said "Hello"; as Bob
      sees it. */
  lemma ProjectExample(alice: Identity, bob: Identity)
    requires alice.id == "a" && alice.name == "Alice" && bob.id == "b"
    ensures Project([StoredMessage(Some("a"), "Hi", Some(alice)), StoredMessage(Some("b"), "Hello", Some(bob))], "b")
      == [ChatEntry(User, "Alice: Hi"), ChatEntry(Assistant, "Hello")]
  {
    var ms := [StoredMessage(Some("a"), "Hi", Some(alice)), StoredMessage(Some("b"), "Hello", Some(bob))];
    assert ms[1..] == [ms[1]] && ms[1..][1..] == [];
    assert Project(ms[1..], "b") == [Entry(ms[1], "b")] + Project([], "b");
    assert Entry(ms[0], "b") == ChatEntry(User, "Alice: Hi");
  }

  /** The endpoint's answer for a request: 404 for an unknown room, 400 for a
      speaker who is not a participant, otherwise the request to stream. */
  function Respond(rooms: map<string, Room>, roomId: string, nextSpeakerId: string): Result<ChatRequest, Refusal>
  {
    if roomId !in rooms then Failure(Refusal(404, "Room not found"))
    else
      var room := rooms[roomId];
      match FindSpeaker(room.participants, nextSpeakerId)
      case None => Failure(Refusal(400, "Speaker not found in room"))
      case Some(speaker) =>
        var others := Others(room.participants, nextSpeakerId);
        var system := ChatEntry(System, SystemPrompt(room.scenario, speaker, others));
        Success(ChatRequest(ModelName, [system] + Project(room.messages, nextSpeakerId)))
  }

  /** The endpoint as written: lookups, prompt loop, projection, prepend. */
  method Post(rooms: map<string, Room>, roomId: string, nextSpeakerId: string) returns (r: Result<ChatRequest, Refusal>)
    ensures r == Respond(rooms, roomId, nextSpeakerId)
  {
    if roomId !in rooms {
      return Failure(Refusal(404, "Room not found"));
    }
    var room := rooms[roomId];
    var currentSpeaker := FindSpeaker(room.participants, nextSpeakerId);
    if currentSpeaker.None? {
      return Failure(Refusal(400, "Speaker not found in room"));
    }
    var otherParticipants := Others(room.participants, nextSpeakerId);
    var fullSystemPrompt := BuildSystemPrompt(room.scenario, currentSpeaker.value, otherParticipants);
    var coreMessages := Project(room.messages, nextSpeakerId);
    r := Success(ChatRequest(ModelName, [ChatEntry(System, fullSystemPrompt)] + coreMessages));
  }

  /** A successful answer sends the system prompt first and then one entry
      per stored message; the system prompt ends with the header and the
      speaker's bio. */
  lemma RespondShape(rooms: map<string, Room>, roomId: string, nextSpeakerId: string)
    ensures var r := Respond(rooms, roomId, nextSpeakerId);
      (r.Failure? <==> (roomId !in rooms ||
                        (forall i :: 0 <= i < |rooms[roomId].participants| ==>
                           rooms[roomId].participants[i].identityId != nextSpeakerId))) &&
      (r.Failure? && roomId !in rooms ==> r.error.status == 404) &&
      (r.Failure? && roomId in rooms ==> r.error.status == 400) &&
      (r.Success? ==>
        r.value.model == ModelName &&
        |r.value.messages| == |rooms[roomId].messages| + 1 &&
        r.value.messages[0].role == System &&
        r.value.messages[1..] == Project(rooms[roomId].messages, nextSpeakerId) &&
        var sp := r.value.messages[0].content;
        var speaker := FindSpeaker(rooms[roomId].participants, nextSpeakerId).value;
        |sp| >= |BioHeader + speaker.bio| && sp[|sp| - |BioHeader + speaker.bio|..] == BioHeader + speaker.bio)
  {
    if roomId in rooms {
      var room := rooms[roomId];
      FindSpeakerFirst(room.participants, nextSpeakerId);
      ProjectEntries(room.messages, nextSpeakerId);
      var r := Respond(rooms, roomId, nextSpeakerId);
      if r.Success? {
        var speaker := FindSpeaker(room.participants, nextSpeakerId).value;
        var others := Others(room.participants, nextSpeakerId);
        var sp := SystemPrompt(room.scenario, speaker, others);
        assert sp == PromptText(room.scenario, speaker, others) + (BioHeader + speaker.bio);
      }
    }
  }

  /** The row `onFinish` writes for a finished completion. */
  function FinishedRow(roomId: string, nextSpeakerId: string, text: string): MessageRow
  {
    MessageRow(text, "assistant", roomId, nextSpeakerId, false)
  }

  /** A whole exchange over the message table `rows`: the answer, and the
      table after `onFinish` ran. `completion` is the generated text, `None`
      when the stream never finished; `writeOk` says whether the insert
      succeeded, a failed insert being caught and logged. */
  function Exchange(rooms: map<string, Room>, rows: seq<MessageRow>, roomId: string, nextSpeakerId: string,
                    completion: Option<string>, writeOk: bool): (Result<ChatRequest, Refusal>, seq<MessageRow>)
  {
    var r := Respond(rooms, roomId, nextSpeakerId);
    if r.Failure? || completion.None? || !writeOk then (r, rows)
    else (r, rows + [FinishedRow(roomId, nextSpeakerId, completion.value)])
  }

  /** A refused request writes nothing; an answered one writes at most one
      row, the full completion as a non-user assistant message of the
      speaker in the requested room, and only when the completion finished
      and the insert succeeded. */
  lemma ExchangeWrites(rooms: map<string, Room>, rows: seq<MessageRow>, roomId: string, nextSpeakerId: string,
                       completion: Option<string>, writeOk: bool)
    ensures var (r, after) := Exchange(rooms, rows, roomId, nextSpeakerId, completion, writeOk);
      r == Respond(rooms, roomId, nextSpeakerId) &&
      (r.Failure? ==> after == rows) &&
      (after != rows <==> r.Success? && completion.Some? && writeOk) &&
      (after != rows ==>
        after == rows + [after[|after| - 1]] &&
        after[|after| - 1] == MessageRow(completion.value, "assistant", roomId, nextSpeakerId, false))
  {
    var (r, after) := Exchange(rooms, rows, roomId, nextSpeakerId, completion, writeOk);
    if r.Success? && completion.Some? && writeOk {
      assert |after| == |rows| + 1;
    }
  }
}

=== FILE: js_replace.dfy ===
/** JavaScript's `String.prototype.replaceAll` with a string pattern and a
    string replacement, as the ECMAScript language specification defines it:
    the occurrences are found left to right without overlap, and each is
    replaced by the replacement after the abstract operation
    `GetSubstitution` has expanded its `$` patterns: `$$` is a dollar sign, `$&` the matched
    text, `` $` `` the text before the match, `$'` the text after it; any
    other `$` stands for itself, since a string pattern has no captures. The
    chat endpoint passes participant names as the replacement, so a name
    holding one of these patterns is not inserted as written. */
module JsReplace {
  import opened Text

  /** The replacement `rep` expanded for the match of `matched` at
      `position` in `str`. */
  function Expand(rep: string, str: string, position: nat, matched: string): string
    requires position + |matched| <= |str|
    decreases |rep|
  {
    if rep == [] then []
    else if rep[0] == '$' && |rep| >= 2 && rep[1] == '$' then "$" + Expand(rep[2..], str, position, matched)
    else if rep[0] == '$' && |rep| >= 2 && rep[1] == '&' then matched + Expand(rep[2..], str, position, matched)
    else if rep[0] == '$' && |rep| >= 2 && rep[1] == '`' then str[..position] + Expand(rep[2..], str, position, matched)
    else if rep[0] == '$' && |rep| >= 2 && rep[1] == '\'' then str[position + |matched|..] + Expand(rep[2..], str, position, matched)
    else [rep[0]] + Expand(rep[1..], str, position, matched)
  }

  /** A replacement without a dollar sign is inserted as written. */
  lemma {:induction false} ExpandLiteral(rep: string, str: string, position: nat, matched: string)
    requires position + |matched| <= |str|
    requires '$' !in rep
    ensures Expand(rep, str, position, matched) == rep
    decreases |rep|
  {
    if rep != [] {
      assert rep[0] != '$';
      assert '$' !in rep[1..];
      ExpandLiteral(rep[1..], str, position, matched);
    }
  }

  /** The scan of `str` from `position` on. */
  function ReplaceFrom(str: string, pat: string, rep: string, position: nat): string
    requires pat != [] && position <= |str|
    decreases |str| - position
  {
    if position + |pat| > |str| then str[position..]
    else if str[position..position + |pat|] == pat then
      Expand(rep, str, position, pat) + ReplaceFrom(str, pat, rep, position + |pat|)
    else [str[position]] + ReplaceFrom(str, pat, rep, position + 1)
  }

  /** `str.replaceAll(pat, rep)`. */
  function JsReplaceAll(str: string, pat: string, rep: string): string
    requires pat != []
  {
    ReplaceFrom(str, pat, rep, 0)
  }

  /** With a replacement free of dollar signs the scan is the literal
      replace-all of the rest of the text. */
  lemma {:induction false} ReplaceFromLiteral(str: string, pat: string, rep: string, position: nat)
    requires pat != [] && position <= |str| && '$' !in rep
    ensures ReplaceFrom(str, pat, rep, position) == ReplaceAll(str[position..], pat, rep)
    decreases |str| - position
  {
    var s := str[position..];
    if position + |pat| <= |str| {
      assert s[..|pat|] == str[position..position + |pat|];
      if s[..|pat|] == pat {
        ExpandLiteral(rep, str, position, pat);
        ReplaceFromLiteral(str, pat, rep, position + |pat|);
        assert s[|pat|..] == str[position + |pat|..];
      } else {
        ReplaceFromLiteral(str, pat, rep, position + 1);
        assert s[1..] == str[position + 1..];
      }
    }
  }

  /** A name without a dollar sign is substituted exactly as the literal
      replace-all does it. */
  lemma JsReplaceAllLiteral(str: string, pat: string, rep: string)
    requires pat != [] && '$' !in rep
    ensures JsReplaceAll(str, pat, rep) == ReplaceAll(str, pat, rep)
  {
    ReplaceFromLiteral(str, pat, rep, 0);
    assert str[0..] == str;
  }

  /** A speaker named `A$&B` leaves `{{char1}}` in the prompt: the name is
      non-empty and shares no character with the placeholder, so the literal
      replace-all would have removed it. */
  lemma DollarNameKeepsPlaceholder()
    ensures JsReplaceAll("{{char1}}", "{{char1}}", "A$&B") == "A{{char1}}B"
    ensures ReplaceAll("{{char1}}", "{{char1}}", "A$&B") == "A$&B"
  {
    var s := "{{char1}}";
    assert s[0..9] == s;
    assert s[9..] == [];
    var rep := "A$&B";
    assert rep[1..][0] == '$' && rep[1..][1] == '&' && rep[1..][2..] == "B";
    assert Expand(rep[1..][2..], s, 0, s) == "B";
    assert Expand(rep, s, 0, s) == "A" + s + "B";
    ReplaceAllOfPattern(s, rep);
  }
}

=== FILE: listings.dfy ===
/** The listings of the two-character server (server.py): pair summaries
    newest-created first and conversation summaries most-recently-updated
    first. Python compares the ISO time strings code point by code point and
    `sorted(..., reverse=True)` keeps entries with equal keys in the order
    they were read. */
module Listings {
  import opened Wrappers
  import opened ServerModels

  /** Python's `<` on strings: the first differing character decides, and a
      proper prefix is smaller. */
  predicate StrLt(a: string, b: string)
    decreases |a|
  {
    if a == [] then b != []
    else if b == [] then false
    else if a[0] < b[0] then true
    else a[0] == b[0] && StrLt(a[1..], b[1..])
  }

  /** No string is below itself. */
  lemma {:induction false} StrLtIrreflexive(a: string)
    ensures !StrLt(a, a)
    decreases |a|
  {
    if a != [] {
      StrLtIrreflexive(a[1..]);
    }
  }

  /** Of two different strings one is below the other. */
  lemma {:induction false} StrLtTotal(a: string, b: string)
    requires a != b
    ensures StrLt(a, b) || StrLt(b, a)
    decreases |a|
  {
    if a != [] && b != [] && a[0] == b[0] {
      assert a == [a[0]] + a[1..] && b == [b[0]] + b[1..];
      StrLtTotal(a[1..], b[1..]);
    }
  }

  lemma {:induction false} StrLtTransitive(a: string, b: string, c: string)
    requires StrLt(a, b) && StrLt(b, c)
    ensures StrLt(a, c)
    decreases |a|
  {
    if a != [] && b != [] && c != [] && a[0] == b[0] && b[0] == c[0] {
      StrLtTransitive(a[1..], b[1..], c[1..]);
    }
  }

  lemma {:induction false} StrLtAsymmetric(a: string, b: string)
    requires StrLt(a, b)
    ensures !StrLt(b, a)
    decreases |a|
  {
    if a != [] && b != [] && a[0] == b[0] {
      StrLtAsymmetric(a[1..], b[1..]);
    }
  }

  /** "Not below" is transitive: the order the sort relies on. */
  lemma StrGeTransitive(a: string, b: string, c: string)
    requires !StrLt(a, b) && !StrLt(b, c)
    ensures !StrLt(a, c)
  {
    if StrLt(a, c) {
      if a == b {
        assert false;
      }
      StrLtTotal(a, b);
      StrLtTransitive(b, a, c);
      assert false;
    }
  }

  /** Keys never increase along `s`. */
  predicate SortedDesc<T>(s: seq<T>, key: T -> string)
  {
    forall i, j :: 0 <= i < j < |s| ==> !StrLt(key(s[i]), key(s[j]))
  }

  /** `x` placed after the entries with a strictly greater key, before the rest. */
  function InsertDesc<T>(x: T, s: seq<T>, key: T -> string): (r: seq<T>)
    ensures multiset(r) == multiset(s) + multiset{x}
    decreases |s|
  {
    if s == [] || !StrLt(key(x), key(s[0])) then [x] + s
    else
      assert s == [s[0]] + s[1..];
      [s[0]] + InsertDesc(x, s[1..], key)
  }

  /** Insertion sort, keys descending, equal keys in input order. */
  function SortDesc<T>(s: seq<T>, key: T -> string): (r: seq<T>)
    ensures multiset(r) == multiset(s)
    decreases |s|
  {
    if s == [] then []
    else
      assert s == [s[0]] + s[1..];
      InsertDesc(s[0], SortDesc(s[1..], key), key)
  }

  lemma {:induction false} InsertDescSorted<T>(x: T, s: seq<T>, key: T -> string)
    requires SortedDesc(s, key)
    ensures SortedDesc(InsertDesc(x, s, key), key)
    decreases |s|
  {
    var r := InsertDesc(x, s, key);
    if s == [] || !StrLt(key(x), key(s[0])) {
      forall i, j | 0 <= i < j < |r|
        ensures !StrLt(key(r[i]), key(r[j]))
      {
        if i == 0 && j >= 2 {
          StrGeTransitive(key(x), key(s[0]), key(s[j - 1]));
        } else if i > 0 {
          assert r[i] == s[i - 1] && r[j] == s[j - 1];
        }
      }
    } else {
      var rest := InsertDesc(x, s[1..], key);
      InsertDescSorted(x, s[1..], key);
      forall i, j | 0 <= i < j < |r|
        ensures !StrLt(key(r[i]), key(r[j]))
      {
        if i == 0 {
          var y := r[j];
          assert y == rest[j - 1];
          assert y in multiset(rest);
          if y == x {
            StrLtAsymmetric(key(x), key(s[0]));
          } else {
            assert y in multiset(s[1..]);
            var m :| 0 <= m < |s[1..]| && s[1..][m] == y;
            assert s[0] == s[0] && s[m + 1] == y;
          }
        } else {
          assert r[i] == rest[i - 1] && r[j] == rest[j - 1];
        }
      }
    }
  }

  /** The sort returns the entries it was given, each as often, keys descending. */
  lemma {:induction false} SortDescCorrect<T>(s: seq<T>, key: T -> string)
    ensures multiset(SortDesc(s, key)) == multiset(s)
    ensures SortedDesc(SortDesc(s, key), key)
    decreases |s|
  {
    if s != [] {
      SortDescCorrect(s[1..], key);
      InsertDescSorted(s[0], SortDesc(s[1..], key), key);
    }
  }

  /** One row of the pair listing. */
  datatype PairSummary = PairSummary(
    id: string,
    name: string,
    createdAt: string,
    character1Name: string,
    character2Name: string)

  /** One row of the conversation listing. */
  datatype ConversationSummary = ConversationSummary(
    id: string,
    createdAt: string,
    updatedAt: string,
    turnCount: int)

  function PairRow(p: CharacterPair): PairSummary
  {
    PairSummary(p.id, p.name, p.createdAt, p.character1.name, p.character2.name)
  }

  function ConversationRow(c: ConversationRecord): ConversationSummary
  {
    ConversationSummary(c.id, c.createdAt, c.updatedAt, c.turnCount)
  }

  function Rows<A, B>(s: seq<A>, f: A -> B): (r: seq<B>)
    ensures |r| == |s| && forall i :: 0 <= i < |s| ==> r[i] == f(s[i])
    decreases |s|
  {
    if s == [] then [] else [f(s[0])] + Rows(s[1..], f)
  }

  /** The pair listing: a summary of every stored pair, newest first. */
  function ListCharacterPairs(pairs: seq<CharacterPair>): seq<PairSummary>
  {
    SortDesc(Rows(pairs, PairRow), (p: PairSummary) => p.createdAt)
  }

  /** The conversation listing of a pair; a pair that is not found lists
      nothing. */
  function ListConversations(folder: Option<seq<ConversationRecord>>): seq<ConversationSummary>
  {
    match folder
    case None => []
    case Some(convs) => SortDesc(Rows(convs, ConversationRow), (c: ConversationSummary) => c.updatedAt)
  }

  /** The pair listing holds one summary per pair and is newest first. */
  lemma ListCharacterPairsCorrect(pairs: seq<CharacterPair>)
    ensures multiset(ListCharacterPairs(pairs)) == multiset(Rows(pairs, PairRow))
    ensures |ListCharacterPairs(pairs)| == |pairs|
    ensures forall i, j :: 0 <= i < j < |pairs| ==>
      !StrLt(ListCharacterPairs(pairs)[i].createdAt, ListCharacterPairs(pairs)[j].createdAt)
  {
    var key := (p: PairSummary) => p.createdAt;
    SortDescCorrect(Rows(pairs, PairRow), key);
    var r := ListCharacterPairs(pairs);
    assert |multiset(r)| == |r|;
    forall i, j | 0 <= i < j < |pairs|
      ensures !StrLt(r[i].createdAt, r[j].createdAt)
    {
      assert key(r[i]) == r[i].createdAt && key(r[j]) == r[j].createdAt;
    }
  }

  /** The conversation listing holds one summary per conversation and is
      most-recently-updated first; an unknown pair lists nothing. */
  lemma ListConversationsCorrect(folder: Option<seq<ConversationRecord>>)
    ensures folder.None? ==> ListConversations(folder) == []
    ensures folder.Some? ==>
      multiset(ListConversations(folder)) == multiset(Rows(folder.value, ConversationRow))
    ensures forall i, j :: 0 <= i < j < |ListConversations(folder)| ==>
      !StrLt(ListConversations(folder)[i].updatedAt, ListConversations(folder)[j].updatedAt)
  {
    if folder.Some? {
      var key := (c: ConversationSummary) => c.updatedAt;
      SortDescCorrect(Rows(folder.value, ConversationRow), key);
      var r := ListConversations(folder);
      forall i, j | 0 <= i < j < |r|
        ensures !StrLt(r[i].updatedAt, r[j].updatedAt)
      {
        assert key(r[i]) == r[i].updatedAt && key(r[j]) == r[j].updatedAt;
      }
    }
  }
}

=== FILE: pair_folders.dfy ===
/** Folder naming of the two-character server (server.py): a new pair gets
    the folder `name1_name2_N` for the first `N`, counting from 1, that is
    not already a folder of the characters directory. The directory is
    modelled as the set of its folder names. */
module PairFolders {
  import opened Text

  /** The folder name tried for the counter value `k`. */
  function FolderName(char1Name: string, char2Name: string, k: nat): string
  {
    char1Name + "_" + char2Name + "_" + Decimal(k)
  }

  /** Different counter values give different folder names. */
  lemma FolderNameInjective(char1Name: string, char2Name: string, a: nat, b: nat)
    requires FolderName(char1Name, char2Name, a) == FolderName(char1Name, char2Name, b)
    ensures a == b
  {
    var base := char1Name + "_" + char2Name + "_";
    assert FolderName(char1Name, char2Name, a)[|base|..] == Decimal(a);
    assert FolderName(char1Name, char2Name, b)[|base|..] == Decimal(b);
    DecimalInjective(a, b);
  }

  /** The counter loop of the server: try `_1`, `_2`, ... until a name is
      free, then create that folder. Returns the folder and the directory
      after it was created. */
  method NewPairFolder(existing: set<string>, char1Name: string, char2Name: string)
    returns (folder: string, after: set<string>)
    ensures folder !in existing
    ensures exists n :: n >= 1 && folder == FolderName(char1Name, char2Name, n) &&
                        (forall k :: 1 <= k < n ==> FolderName(char1Name, char2Name, k) in existing)
    ensures after == existing + {folder}
  {
    var counter := 1;
    ghost var left := existing;
    while true
      invariant counter >= 1 && left <= existing
      invariant forall k :: 1 <= k < counter ==> FolderName(char1Name, char2Name, k) in existing
      invariant forall j :: j >= counter && FolderName(char1Name, char2Name, j) in existing ==>
        FolderName(char1Name, char2Name, j) in left
      decreases |left|
    {
      folder := FolderName(char1Name, char2Name, counter);
      if folder !in existing {
        after := existing + {folder};
        return;
      }
      forall j | j >= counter + 1 && FolderName(char1Name, char2Name, j) in existing
        ensures FolderName(char1Name, char2Name, j) != folder
      {
        if FolderName(char1Name, char2Name, j) == folder {
          FolderNameInjective(char1Name, char2Name, j, counter);
        }
      }
      left := left - {folder};
      counter := counter + 1;
    }
  }

  /** The name the loop picks is determined: two names that both satisfy
      the loop's postcondition are the same. */
  lemma FirstFreeIsUnique(existing: set<string>, char1Name: string, char2Name: string, m: nat, n: nat)
    requires m >= 1 && FolderName(char1Name, char2Name, m) !in existing
    requires forall k :: 1 <= k < m ==> FolderName(char1Name, char2Name, k) in existing
    requires n >= 1 && FolderName(char1Name, char2Name, n) !in existing
    requires forall k :: 1 <= k < n ==> FolderName(char1Name, char2Name, k) in existing
    ensures m == n
  {
  }
}

=== FILE: server_models.dfy ===
/** The records of the two-character server (server.py): characters, pairs,
    messages and the conversation, plus the in-memory conversation object
    that a request loads, updates in place and saves back. */
module ServerModels {
  import opened Wrappers

  datatype Character = Character(
    name: string,
    definition: string,
    model: string,
    startingMessage: Option<string>)

  datatype CharacterPair = CharacterPair(
    id: string,
    name: string,
    createdAt: string,
    lastConversationId: Option<string>,
    character1: Character,
    character2: Character)

  datatype Message = Message(
    id: string,
    role: string,
    content: string,
    character: string,
    timestamp: string)

  /** A conversation as it is stored on disk. */
  datatype ConversationRecord = ConversationRecord(
    id: string,
    pairId: string,
    createdAt: string,
    updatedAt: string,
    turnCount: int,
    messages: seq<Message>)
  {
    /** Every turn the system counted is a stored message. */
    predicate Consistent()
    {
      turnCount == |messages|
    }
  }

  datatype ApiConfig = ApiConfig(baseUrl: string, apiKey: string)

  /** The one entry of the chat-completions request body. */
  datatype ChatMessage = ChatMessage(role: string, content: string)

  /** What is sent to an LLM endpoint: which endpoint, which model, which messages. */
  datatype LlmRequest = LlmRequest(config: ApiConfig, model: string, messages: seq<ChatMessage>)

  /** A conversation loaded into memory; a turn cycle mutates it in place. */
  class Conversation {
    var id: string
    var pairId: string
    var createdAt: string
    var updatedAt: string
    var turnCount: int
    var messages: seq<Message>

    /** The value that saving the object writes to disk. */
    function Record(): ConversationRecord
      reads this
    {
      ConversationRecord(id, pairId, createdAt, updatedAt, turnCount, messages)
    }

    /** A new, empty conversation: no turns and no messages. The two times
        are two separate readings of the clock. */
    constructor Create(id: string, pairId: string, createdAt: string, updatedAt: string)
      ensures Record() == ConversationRecord(id, pairId, createdAt, updatedAt, 0, [])
      ensures Record().Consistent()
    {
      this.id := id;
      this.pairId := pairId;
      this.createdAt := createdAt;
      this.updatedAt := updatedAt;
      this.turnCount := 0;
      this.messages := [];
    }

    /** The object built from a stored conversation. */
    constructor Load(rec: ConversationRecord)
      ensures Record() == rec
    {
      id := rec.id;
      pairId := rec.pairId;
      createdAt := rec.createdAt;
      updatedAt := rec.updatedAt;
      turnCount := rec.turnCount;
      messages := rec.messages;
    }

    /** One generated turn: the message is appended, the turn counted and
        the modification time set; identity fields do not change. */
    method Append(m: Message, now: string)
      modifies this
      ensures messages == old(messages) + [m]
      ensures turnCount == old(turnCount) + 1
      ensures updatedAt == now
      ensures id == old(id) && pairId == old(pairId) && createdAt == old(createdAt)
      ensures old(Record().Consistent()) ==> Record().Consistent()
    {
      messages := messages + [m];
      turnCount := turnCount + 1;
      updatedAt := now;
    }
  }
}

=== FILE: server_prompt.dfy ===
/** Prompt text of the two-character server (server.py): placeholder
    substitution in the global system prompt and character definitions, and
    the single context string sent as the one system message of a turn. */
module ServerPrompt {
  import opened Text
  import opened ServerModels

  const Char1: string := "{{char1}}"
  const Char2: string := "{{char2}}"

  /** Every `{{char1}}` becomes the speaker's name, then every `{{char2}}`
      of that result becomes the other character's name. */
  function ReplaceVariables(text: string, charName: string, otherName: string): string
  {
    ReplaceAll(ReplaceAll(text, Char1, charName), Char2, otherName)
  }

  /** Text holding neither placeholder is returned unchanged. */
  lemma ReplaceVariablesWithoutPlaceholders(text: string, charName: string, otherName: string)
    requires !Contains(text, Char1) && !Contains(text, Char2)
    ensures ReplaceVariables(text, charName, otherName) == text
  {
    ReplaceAllAbsent(text, Char1, charName);
    ReplaceAllAbsent(text, Char2, otherName);
  }

  /** With names that hold no brace and some character found in no
      placeholder, such as "Alice", no placeholder survives the
      substitution. */
  lemma ReplaceVariablesResolves(text: string, charName: string, otherName: string)
    requires SafeName(charName) && SafeName(otherName)
    ensures !Contains(ReplaceVariables(text, charName, otherName), Char1)
    ensures !Contains(ReplaceVariables(text, charName, otherName), Char2)
  {
    PlaceholdersBraced();
    BracedIsolated(charName, "char1");
    BracedIsolated(otherName, "char1");
    BracedIsolated(otherName, "char2");
    var once := ReplaceAll(text, Char1, charName);
    ReplaceAllResolves(text, Char1, charName);
    ReplaceAllKeepsAbsent(once, Char2, otherName, Char1);
    ReplaceAllResolves(once, Char2, otherName);
  }

  /** Both placeholders are a body of placeholder characters in double braces. */
  lemma PlaceholdersBraced()
    ensures Char1 == "{{" + "char1" + "}}" && Char2 == "{{" + "char2" + "}}"
    ensures forall i :: 0 <= i < 5 ==> "char1"[i] in PlaceholderBodyChars && "char2"[i] in PlaceholderBodyChars
  {
    assert PlaceholderBodyChars[..4] == "char";
    assert PlaceholderBodyChars[5] == '1' && PlaceholderBodyChars[6] == '2';
  }

  /** An everyday name qualifies. */
  lemma AliceIsSafe()
    ensures SafeName("Alice")
  {
    assert "Alice"[0] == 'A';
    assert 'A' !in PlaceholderBodyChars;
  }

  /** `{{char1}}` is substituted first: a speaker name that itself reads
      `{{char2}}` is then replaced by the other name. */
  lemma ReplaceVariablesOrder(otherName: string)
    ensures ReplaceVariables(Char1, Char2, otherName) == otherName
  {
    ReplaceAllOfPattern(Char1, Char2);
    ReplaceAllOfPattern(Char2, otherName);
  }

  /** Without a condition on the names, a placeholder can be assembled from
      template text around an inserted name. */
  lemma PlaceholderRebuiltFromFragments()
    ensures ReplaceVariables("{{c{{char1}}1}}", "har", "x") == Char1
  {
    var s := "{{c{{char1}}1}}";
    assert s[..9][3] != Char1[3];
    assert s[1..][..9] != Char1;
    assert s[2..][..9] != Char1;
    assert s[3..][..9] == Char1;
    assert s[3..][9..] == "1}}";
    assert ReplaceAll("1}}", Char1, "har") == "1}}";
    assert ReplaceAll(s, Char1, "har") == Char1;
    assert Char1[6] == '1' && Char2[6] == '2';
    assert Char1[..9] != Char2;
    assert ReplaceAll(Char1[1..], Char2, "x") == Char1[1..];
  }

  const StartMarker: string := "[Start a new Chat]"

  /** The separator between context parts: the two characters backslash and
      `n`, not a line break. */
  const Separator: string := "\\n"

  /** One transcript line of the context. */
  function Line(m: Message): string
  {
    m.character + ": " + m.content
  }

  /** One line per message, in order. */
  function Lines(ms: seq<Message>): (ls: seq<string>)
    ensures |ls| == |ms|
    ensures forall i :: 0 <= i < |ms| ==> ls[i] == Line(ms[i])
    decreases |ms|
  {
    if ms == [] then [] else Lines(ms[..|ms| - 1]) + [Line(ms[|ms| - 1])]
  }

  /** The parts joined with the separator between consecutive parts. */
  function Join(parts: seq<string>): string
    decreases |parts|
  {
    if |parts| == 0 then ""
    else if |parts| == 1 then parts[0]
    else parts[0] + Separator + Join(parts[1..])
  }

  /** Joining one more part adds one separator and that part at the end. */
  lemma {:induction false} JoinAppend(parts: seq<string>, x: string)
    requires |parts| >= 1
    ensures Join(parts + [x]) == Join(parts) + Separator + x
    decreases |parts|
  {
    if |parts| == 1 {
      assert (parts + [x])[1..] == [x];
    } else {
      assert (parts + [x])[1..] == parts[1..] + [x];
      JoinAppend(parts[1..], x);
    }
  }

  /** The whole context of a turn: the substituted system prompt, the
      substituted character definition, the start marker and one line per
      message so far. */
  function Context(sysPrompt: string, charDef: string, ms: seq<Message>): string
  {
    Join([sysPrompt, charDef, StartMarker] + Lines(ms))
  }

  /** Before any message the context is the three fixed parts. */
  lemma ContextOfEmptyTranscript(sysPrompt: string, charDef: string)
    ensures Context(sysPrompt, charDef, []) ==
            sysPrompt + Separator + charDef + Separator + StartMarker
  {
    var parts := [sysPrompt, charDef, StartMarker];
    assert parts + Lines([]) == parts;
    assert parts[1..] == [charDef, StartMarker];
    assert parts[1..][1..] == [StartMarker];
    assert Join(parts[1..]) == charDef + Separator + StartMarker;
  }

  /** A message added to the transcript adds exactly its line at the end of
      the context. */
  lemma ContextExtends(sysPrompt: string, charDef: string, ms: seq<Message>, m: Message)
    ensures Context(sysPrompt, charDef, ms + [m]) ==
            Context(sysPrompt, charDef, ms) + Separator + Line(m)
  {
    var head := [sysPrompt, charDef, StartMarker];
    assert (ms + [m])[..|ms + [m]| - 1] == ms;
    assert head + Lines(ms + [m]) == (head + Lines(ms)) + [Line(m)];
    JoinAppend(head + Lines(ms), Line(m));
  }

  /** The context built as the server builds it: a list of parts grown
      message by message, then joined. */
  method BuildContext(sysPrompt: string, charDef: string, ms: seq<Message>) returns (context: string)
    ensures context == Context(sysPrompt, charDef, ms)
  {
    var parts := [sysPrompt, charDef, StartMarker];
    for i := 0 to |ms|
      invariant parts == [sysPrompt, charDef, StartMarker] + Lines(ms[..i])
    {
      assert ms[..i + 1][..i] == ms[..i];
      parts := parts + [Line(ms[i])];
    }
    assert ms[..|ms|] == ms;
    context := Join(parts);
  }
}

=== FILE: text.dfy ===
/** Literal text operations shared by both implementations: occurrence of a
    substring, the left-to-right, non-overlapping replace-all of Python's
    `str.replace` (inserted text is never scanned again), and the decimal
    rendering of a natural number used to spell `{{charK}}`. */
module Text {

  /** `q` occurs in `s` starting at index `j`. */
  ghost predicate OccursAt(s: string, q: string, j: nat)
  {
    j + |q| <= |s| && s[j..j + |q|] == q
  }

  /** `q` occurs somewhere in `s`. */
  ghost predicate Contains(s: string, q: string)
  {
    exists j: nat :: OccursAt(s, q, j)
  }

  /** One of `a` and `b` is a prefix of the other. */
  ghost predicate Compatible(a: string, b: string)
  {
    if |a| <= |b| then a == b[..|a|] else b == a[..|b|]
  }

  /** An inserted `rep` never overlaps an occurrence of `q` it is not part
      of: no occurrence of `q` can start inside `rep`, and `rep` cannot
      start inside an occurrence of `q` after its first character. */
  ghost predicate Isolated(rep: string, q: string)
  {
    (forall j :: 0 <= j < |rep| ==> !Compatible(rep[j..], q)) &&
    (forall i :: 0 < i < |q| ==> !Compatible(rep, q[i..]))
  }

  /** Scan `s` from the left; wherever `pat` starts, emit `rep` and resume
      after the occurrence, otherwise emit one character and move on. */
  function ReplaceAll(s: string, pat: string, rep: string): string
    requires pat != []
    decreases |s|
  {
    if |s| < |pat| then s
    else if s[..|pat|] == pat then rep + ReplaceAll(s[|pat|..], pat, rep)
    else [s[0]] + ReplaceAll(s[1..], pat, rep)
  }

  /** An occurrence in a suffix is an occurrence in the whole. */
  lemma ContainsInSuffix(s: string, q: string, k: nat)
    requires k <= |s| && Contains(s[k..], q)
    ensures Contains(s, q)
  {
    var j: nat :| OccursAt(s[k..], q, j);
    assert s[k..][j..j + |q|] == s[k + j..k + j + |q|];
    assert OccursAt(s, q, k + j);
  }

  /** Text without the pattern comes back unchanged. */
  lemma {:induction false} ReplaceAllAbsent(s: string, pat: string, rep: string)
    requires pat != [] && !Contains(s, pat)
    ensures ReplaceAll(s, pat, rep) == s
    decreases |s|
  {
    if |s| >= |pat| {
      assert !OccursAt(s, pat, 0);
      if Contains(s[1..], pat) {
        ContainsInSuffix(s, pat, 1);
      }
      ReplaceAllAbsent(s[1..], pat, rep);
    }
  }

  /** The pattern alone becomes the replacement, verbatim. */
  lemma ReplaceAllOfPattern(pat: string, rep: string)
    requires pat != []
    ensures ReplaceAll(pat, pat, rep) == rep
  {
    assert pat[|pat|..] == [];
    assert ReplaceAll(pat[|pat|..], pat, rep) == [];
  }

  /** An occurrence of the pattern at the front is replaced and the scan
      resumes right after it. */
  lemma ReplaceAllAtPattern(pat: string, s: string, rep: string)
    requires pat != []
    ensures ReplaceAll(pat + s, pat, rep) == rep + ReplaceAll(s, pat, rep)
  {
    assert (pat + s)[..|pat|] == pat;
    assert (pat + s)[|pat|..] == s;
  }

  /** Text none of whose characters can start the pattern is copied as is,
      and the scan goes on after it. */
  lemma {:induction false} ReplaceAllSkip(u: string, s: string, pat: string, rep: string)
    requires pat != []
    requires forall i :: 0 <= i < |u| ==> u[i] != pat[0]
    ensures ReplaceAll(u + s, pat, rep) == u + ReplaceAll(s, pat, rep)
    decreases |u|
  {
    if u == [] {
      assert u + s == s;
    } else {
      var t := u + s;
      if |t| < |pat| {
        assert ReplaceAll(s, pat, rep) == s;
      } else {
        assert t[..|pat|][0] != pat[0];
        assert t[1..] == u[1..] + s;
        ReplaceAllSkip(u[1..], s, pat, rep);
      }
    }
  }

  /** The first `m` characters of the output were copied from the input
      unchanged, unless a replacement was inserted before position `m`. */
  lemma {:induction false} CopiedOrInserted(t: string, pat: string, rep: string, m: nat)
    requires pat != [] && m <= |ReplaceAll(t, pat, rep)|
    ensures (m <= |t| && ReplaceAll(t, pat, rep)[..m] == t[..m]) ||
            (exists p: nat :: p < m && OccursAt(ReplaceAll(t, pat, rep), rep, p))
    decreases |t|
  {
    var r := ReplaceAll(t, pat, rep);
    if m > 0 && |t| >= |pat| {
      if t[..|pat|] == pat {
        assert r[..|rep|] == rep;
        assert OccursAt(r, rep, 0);
      } else {
        var r' := ReplaceAll(t[1..], pat, rep);
        assert r == [t[0]] + r';
        CopiedOrInserted(t[1..], pat, rep, m - 1);
        if m - 1 <= |t[1..]| && r'[..m - 1] == t[1..][..m - 1] {
          assert r[..m] == [t[0]] + r'[..m - 1];
          assert t[..m] == [t[0]] + t[1..][..m - 1];
        } else {
          var p: nat :| p < m - 1 && OccursAt(r', rep, p);
          assert r[p + 1..p + 1 + |rep|] == r'[p..p + |rep|];
          assert OccursAt(r, rep, p + 1);
        }
      }
    }
  }

  /** An occurrence in `x + y` that does not start inside `x` is one in `y`. */
  lemma AbsentAfterPrefix(x: string, y: string, xy: string, q: string)
    requires xy == x + y && !Contains(y, q)
    requires forall j: nat :: j < |x| ==> !OccursAt(xy, q, j)
    ensures !Contains(xy, q)
  {
    forall j: nat | j >= |x| && j + |q| <= |xy|
      ensures !OccursAt(xy, q, j)
    {
      assert xy[j..j + |q|] == y[j - |x|..j - |x| + |q|];
      assert !OccursAt(y, q, j - |x|);
    }
  }

  /** An occurrence of `q` that starts inside `rep` agrees with the rest of
      `rep` as far as both go. */
  lemma StartsInside(rep: string, y: string, ry: string, q: string)
    requires ry == rep + y
    ensures forall j: nat :: j < |rep| && OccursAt(ry, q, j) ==> Compatible(rep[j..], q)
  {
    forall j: nat | j < |rep| && OccursAt(ry, q, j)
      ensures Compatible(rep[j..], q)
    {
      if |rep| - j <= |q| {
        assert rep[j..] == ry[j..j + |q|][..|rep| - j];
      } else {
        assert q == ry[j..j + |q|] == rep[j..][..|q|];
      }
    }
  }

  /** No occurrence of `q` starts inside a replacement isolated from it. */
  lemma NoneStartsInReplacement(rep: string, y: string, ry: string, q: string)
    requires ry == rep + y && Isolated(rep, q)
    ensures forall j: nat :: j < |rep| ==> !OccursAt(ry, q, j)
  {
    StartsInside(rep, y, ry, q);
  }

  /** An occurrence at the front of the output after a copied first
      character was either at the front of the input already, or has a
      replacement starting inside it. */
  lemma {:induction false} FrontOverlap(s: string, pat: string, rep: string, q: string)
    requires pat != [] && q != [] && |s| >= 1
    ensures OccursAt([s[0]] + ReplaceAll(s[1..], pat, rep), q, 0) ==>
      OccursAt(s, q, 0) || exists i :: 0 < i < |q| && Compatible(rep, q[i..])
  {
    var r' := ReplaceAll(s[1..], pat, rep);
    var r := [s[0]] + r';
    if OccursAt(r, q, 0) {
      assert r'[..|q| - 1] == r[..|q|][1..] == q[1..];
      CopiedOrInserted(s[1..], pat, rep, |q| - 1);
      if |q| - 1 <= |s[1..]| && r'[..|q| - 1] == s[1..][..|q| - 1] {
        assert s[..|q|] == [s[0]] + s[1..][..|q| - 1];
      } else {
        var p: nat :| p < |q| - 1 && OccursAt(r', rep, p);
        OverlapInWindow(r', q, rep, p);
      }
    }
  }

  /** A replacement inserted inside the copied window of an occurrence of
      `q` agrees with the rest of `q` as far as both go. */
  lemma OverlapInWindow(r': string, q: string, rep: string, p: nat)
    requires 1 <= |q| && |q| - 1 <= |r'| && r'[..|q| - 1] == q[1..]
    requires p < |q| - 1 && OccursAt(r', rep, p)
    ensures Compatible(rep, q[p + 1..])
  {
    forall k | 0 <= k < |rep| && k < |q| - 1 - p
      ensures rep[k] == q[p + 1 + k]
    {
      assert rep[k] == r'[p..p + |rep|][k] == r'[p + k];
      assert r'[p + k] == r'[..|q| - 1][p + k] == q[1..][p + k];
    }
    if |rep| <= |q| - 1 - p {
      assert rep == q[p + 1..][..|rep|];
    } else {
      assert q[p + 1..] == rep[..|q| - 1 - p];
    }
  }

  /** When the scan copies the first character of `s`, no occurrence of a
      text `q` absent at the front of `s` appears at the front of the output. */
  lemma FrontCopied(s: string, pat: string, rep: string, q: string)
    requires pat != [] && q != [] && Isolated(rep, q)
    requires |s| >= 1 && !OccursAt(s, q, 0)
    ensures !OccursAt([s[0]] + ReplaceAll(s[1..], pat, rep), q, 0)
  {
    FrontOverlap(s, pat, rep, q);
  }

  /** A replacement isolated from the pattern leaves no occurrence of the
      pattern behind, not even one formed across the boundary of an
      inserted replacement. */
  lemma {:induction false} ReplaceAllResolves(s: string, pat: string, rep: string)
    requires pat != [] && Isolated(rep, pat)
    ensures !Contains(ReplaceAll(s, pat, rep), pat)
    decreases |s|
  {
    if |s| < |pat| {
      forall j: nat ensures !OccursAt(s, pat, j) {}
    } else if s[..|pat|] == pat {
      ReplaceAllResolves(s[|pat|..], pat, rep);
      var rest := ReplaceAll(s[|pat|..], pat, rep);
      NoneStartsInReplacement(rep, rest, rep + rest, pat);
      AbsentAfterPrefix(rep, rest, rep + rest, pat);
    } else {
      ReplaceAllResolves(s[1..], pat, rep);
      var rest := ReplaceAll(s[1..], pat, rep);
      FrontCopied(s, pat, rep, pat);
      AbsentAfterPrefix([s[0]], rest, [s[0]] + rest, pat);
    }
  }

  /** Replacing one pattern does not create another text `q` that was
      absent, provided the replacement is isolated from `q`. */
  lemma {:induction false} ReplaceAllKeepsAbsent(s: string, pat: string, rep: string, q: string)
    requires pat != [] && q != [] && Isolated(rep, q)
    requires !Contains(s, q)
    ensures !Contains(ReplaceAll(s, pat, rep), q)
    decreases |s|
  {
    if |s| < |pat| {
    } else if s[..|pat|] == pat {
      if Contains(s[|pat|..], q) {
        ContainsInSuffix(s, q, |pat|);
      }
      ReplaceAllKeepsAbsent(s[|pat|..], pat, rep, q);
      var rest := ReplaceAll(s[|pat|..], pat, rep);
      NoneStartsInReplacement(rep, rest, rep + rest, q);
      AbsentAfterPrefix(rep, rest, rep + rest, q);
    } else {
      if Contains(s[1..], q) {
        ContainsInSuffix(s, q, 1);
      }
      ReplaceAllKeepsAbsent(s[1..], pat, rep, q);
      assert !OccursAt(s, q, 0);
      var rest := ReplaceAll(s[1..], pat, rep);
      FrontCopied(s, pat, rep, q);
      AbsentAfterPrefix([s[0]], rest, [s[0]] + rest, q);
    }
  }

  /** Dropping the first `k` characters of `x + y` keeps occurrences of
      the pattern away from the boundary. */
  lemma NoStraddleAfterDrop(x: string, xy: string, pat: string, k: nat)
    requires k <= |x| <= |xy|
    requires forall j: nat :: j < |x| < j + |pat| ==> !OccursAt(xy, pat, j)
    ensures forall j: nat :: j < |x| - k < j + |pat| ==> !OccursAt(xy[k..], pat, j)
  {
    forall j: nat | j < |x| - k < j + |pat|
      ensures !OccursAt(xy[k..], pat, j)
    {
      if j + |pat| <= |xy[k..]| {
        assert xy[k..][j..j + |pat|] == xy[j + k..j + k + |pat|];
        assert !OccursAt(xy, pat, j + k);
      }
    }
  }

  /** When no occurrence of the pattern straddles the boundary between `x`
      and `y`, the scan treats the two sides independently. */
  lemma {:induction false} ReplaceAllSplit(x: string, y: string, xy: string, pat: string, rep: string)
    requires pat != [] && xy == x + y
    requires forall j: nat :: j < |x| < j + |pat| ==> !OccursAt(xy, pat, j)
    ensures ReplaceAll(xy, pat, rep) == ReplaceAll(x, pat, rep) + ReplaceAll(y, pat, rep)
    decreases |x|
  {
    if x == [] {
      assert xy == y;
    } else if |xy| < |pat| {
      assert ReplaceAll(y, pat, rep) == y;
    } else if xy[..|pat|] == pat {
      assert OccursAt(xy, pat, 0);
      NoStraddleAfterDrop(x, xy, pat, |pat|);
      assert xy[|pat|..] == x[|pat|..] + y;
      ReplaceAllSplit(x[|pat|..], y, xy[|pat|..], pat, rep);
      SplitAtMatch(x, y, xy, pat, rep);
    } else {
      NoStraddleAfterDrop(x, xy, pat, 1);
      assert xy[1..] == x[1..] + y;
      ReplaceAllSplit(x[1..], y, xy[1..], pat, rep);
      SplitAtCopy(x, y, xy, pat, rep);
    }
  }

  /** The step of `ReplaceAllSplit` where the pattern starts `x`. */
  lemma SplitAtMatch(x: string, y: string, xy: string, pat: string, rep: string)
    requires pat != [] && xy == x + y && |pat| <= |x| && xy[..|pat|] == pat
    requires ReplaceAll(xy[|pat|..], pat, rep) == ReplaceAll(x[|pat|..], pat, rep) + ReplaceAll(y, pat, rep)
    ensures ReplaceAll(xy, pat, rep) == ReplaceAll(x, pat, rep) + ReplaceAll(y, pat, rep)
  {
    assert x[..|pat|] == pat;
  }

  /** The step of `ReplaceAllSplit` where the first character of `x` is copied. */
  lemma SplitAtCopy(x: string, y: string, xy: string, pat: string, rep: string)
    requires pat != [] && xy == x + y && x != [] && |pat| <= |xy| && xy[..|pat|] != pat
    requires ReplaceAll(xy[1..], pat, rep) == ReplaceAll(x[1..], pat, rep) + ReplaceAll(y, pat, rep)
    ensures ReplaceAll(xy, pat, rep) == ReplaceAll(x, pat, rep) + ReplaceAll(y, pat, rep)
  {
    CopiesFirst(xy, pat, rep);
    if |x| >= |pat| {
      assert x[..|pat|] == xy[..|pat|];
      CopiesFirst(x, pat, rep);
    } else {
      assert ReplaceAll(x[1..], pat, rep) == x[1..];
      assert ReplaceAll(x, pat, rep) == x == [x[0]] + x[1..];
    }
    ConsAssoc(x[0], ReplaceAll(xy, pat, rep), ReplaceAll(xy[1..], pat, rep),
              ReplaceAll(x[1..], pat, rep), ReplaceAll(y, pat, rep), ReplaceAll(x, pat, rep));
  }

  lemma ConsAssoc(c: char, whole: string, tail: string, front: string, back: string, first: string)
    requires whole == [c] + tail && tail == front + back && first == [c] + front
    ensures whole == first + back
  {
  }

  /** Where the pattern does not start, the first character is copied. */
  lemma CopiesFirst(t: string, pat: string, rep: string)
    requires pat != [] && |pat| <= |t| && t[..|pat|] != pat
    ensures ReplaceAll(t, pat, rep) == [t[0]] + ReplaceAll(t[1..], pat, rep)
  {
  }

  /** The characters that can stand between the braces of a `{{charN}}`
      placeholder. */
  const PlaceholderBodyChars: string := "char0123456789"

  /** A name that can neither complete nor split a `{{charN}}` placeholder
      when inserted: it holds no brace, and some character of it appears in
      no placeholder. */
  ghost predicate SafeName(name: string)
  {
    '{' !in name && '}' !in name &&
    exists k :: 0 <= k < |name| && name[k] !in PlaceholderBodyChars
  }

  /** Where a name overlaps `{{body}}`, the name holds a brace or is made
      of characters of the body only. */
  lemma BracedOverlap(name: string, body: string)
    requires forall i :: 0 <= i < |body| ==> body[i] in PlaceholderBodyChars
    ensures forall j :: 0 <= j < |name| && Compatible(name[j..], "{{" + body + "}}") ==> '{' in name
    ensures forall i :: 0 < i < |body| + 4 && Compatible(name, ("{{" + body + "}}")[i..]) ==>
      '{' in name || '}' in name || forall x :: 0 <= x < |name| ==> name[x] in PlaceholderBodyChars
  {
    var q := "{{" + body + "}}";
    assert q[0] == '{' && q[1] == '{' && q[|q| - 2] == '}' && q[|q| - 1] == '}';
    forall j | 0 <= j < |name| && Compatible(name[j..], q)
      ensures '{' in name
    {
      if |name[j..]| <= |q| {
        assert name[j..] == q[..|name| - j];
      } else {
        assert q == name[j..][..|q|];
      }
      assert name[j] == '{';
    }
    forall i | 0 < i < |q| && Compatible(name, q[i..])
      ensures '{' in name || '}' in name || forall x :: 0 <= x < |name| ==> name[x] in PlaceholderBodyChars
    {
      if |name| <= |q| - i {
        assert name == q[i..][..|name|];
        if name == [] {
        } else if i < 2 || i >= |q| - 2 {
          assert name[0] == q[i];
        } else if i + |name| > |q| - 2 {
          assert name[|q| - 2 - i] == q[|q| - 2];
        } else {
          forall x | 0 <= x < |name|
            ensures name[x] in PlaceholderBodyChars
          {
            assert name[x] == q[i + x] == body[i + x - 2];
          }
        }
      } else {
        assert q[i..] == name[..|q| - i];
        assert name[|q| - 1 - i] == q[|q| - 1];
      }
    }
  }

  /** A safe name is isolated from any text `{{body}}` whose body uses
      placeholder characters only. */
  lemma BracedIsolated(name: string, body: string)
    requires SafeName(name)
    requires forall i :: 0 <= i < |body| ==> body[i] in PlaceholderBodyChars
    ensures Isolated(name, "{{" + body + "}}")
  {
    BracedOverlap(name, body);
  }

  /** The decimal digit for `d`. */
  function Digit(d: nat): (c: char)
    requires d < 10
    ensures '0' <= c <= '9'
  {
    ('0' as int + d) as char
  }

  /** The decimal spelling of `n`, as Python's f-strings and JavaScript's
      template literals print a non-negative integer. */
  function Decimal(n: nat): (r: string)
    ensures |r| >= 1 && (n < 10 <==> |r| == 1)
    ensures forall i :: 0 <= i < |r| ==> '0' <= r[i] <= '9'
    decreases n
  {
    if n < 10 then [Digit(n)] else Decimal(n / 10) + [Digit(n % 10)]
  }

  /** Different numbers are spelled differently. */
  lemma {:induction false} DecimalInjective(a: nat, b: nat)
    requires Decimal(a) == Decimal(b)
    ensures a == b
    decreases a
  {
    if a >= 10 && b >= 10 {
      var da, db := Decimal(a), Decimal(b);
      assert da == Decimal(a / 10) + [Digit(a % 10)];
      assert db == Decimal(b / 10) + [Digit(b % 10)];
      assert Digit(a % 10) == da[|da| - 1] == db[|db| - 1] == Digit(b % 10);
      assert Decimal(a / 10) == da[..|da| - 1] == db[..|db| - 1] == Decimal(b / 10);
      DecimalInjective(a / 10, b / 10);
    } else if a < 10 && b < 10 {
      assert Digit(a) == Decimal(a)[0] == Decimal(b)[0] == Digit(b);
    }
  }
}

=== FILE: turn_engine.dfy ===
/** The turn engine of the two-character server (server.py): creating a
    conversation, and the event stream of a turn cycle, which generates a
    bounded number of alternating turns, stops at the first failed or empty
    reply, and saves the conversation only when every turn succeeded. */
module TurnEngine {
  import opened Wrappers
  import opened ServerModels
  import opened ServerPrompt

  /** The outcome of one call to an LLM endpoint: it raised, or it answered
      with the `content` of the first choice (`None` for a JSON null). */
  datatype LlmReply = Raised(reason: string) | Returned(content: Option<string>)

  /** Everything a cycle learns from outside: the endpoint's reply and a
      fresh message id, indexed by the number of the turn within the cycle,
      and the current time, indexed by the number of the reading. Turn `k`
      reads the clock twice, reading `2k` for the message's timestamp and
      reading `2k + 1` for the conversation's modification time. */
  datatype Oracle = Oracle(reply: nat -> LlmReply, freshId: nat -> string, clock: nat -> string)

  /** One server-sent event of the stream. */
  datatype Event = MessageEvent(message: Message) | Complete(totalTurns: int) | ErrorEvent(text: string)

  /** The data directory: pairs by id, conversations by (pair id, conversation
      id), the two endpoint configurations (`None` when the file is missing or
      empty) and the global system prompt ("" when unset). */
  datatype Store = Store(
    pairs: map<string, CharacterPair>,
    conversations: map<(string, string), ConversationRecord>,
    config1: Option<ApiConfig>,
    config2: Option<ApiConfig>,
    systemPrompt: string)

  /** An error response of an HTTP endpoint. */
  datatype HttpError = HttpError(status: int, detail: string)

  const PairNotFound: string := "Character pair not found"
  const ConfigMissing: string := "Please configure both API endpoints"
  const ConversationNotFound: string := "Unexpected error: 404: Conversation not found"
  const EmptyReply: string := "Received empty or null response from LLM API"
  const CallFailed: string := "LLM API call failed: "

  /** The characters Python's `str.strip()` removes. */
  predicate IsSpace(c: char)
  {
    var n := c as int;
    9 <= n <= 13 || 28 <= n <= 32 || n == 0x85 || n == 0xA0 || n == 0x1680 ||
    0x2000 <= n <= 0x200A || n == 0x2028 || n == 0x2029 || n == 0x202F ||
    n == 0x205F || n == 0x3000
  }

  /** `s.strip() == ""`. */
  predicate IsBlank(s: string)
  {
    forall i :: 0 <= i < |s| ==> IsSpace(s[i])
  }

  /** `s.lower() == "null"`; only ASCII letters lower-case to these four. */
  predicate IsNullWord(s: string)
  {
    |s| == 4 && s[0] in "nN" && s[1] in "uU" && s[2] in "lL" && s[3] in "lL"
  }

  /** A reply the cycle refuses: missing, empty, blank, or "null" in any case. */
  predicate Rejected(content: Option<string>)
  {
    content.None? || content.value == "" || IsBlank(content.value) || IsNullWord(content.value)
  }

  /** What a cycle works with once its inputs were loaded. */
  datatype Cycle = Cycle(
    pair: CharacterPair,
    config1: ApiConfig,
    config2: ApiConfig,
    systemPrompt: string,
    oracle: Oracle)

  /** With an even number of messages character 1 speaks, otherwise character 2. */
  function Speaker(pair: CharacterPair, count: nat): Character
  {
    if count % 2 == 0 then pair.character1 else pair.character2
  }

  function Listener(pair: CharacterPair, count: nat): Character
  {
    if count % 2 == 0 then pair.character2 else pair.character1
  }

  function ConfigFor(c: Cycle, count: nat): ApiConfig
  {
    if count % 2 == 0 then c.config1 else c.config2
  }

  /** The request of the turn that follows the messages `ms`: the speaker's
      endpoint and model, and one system message holding the whole context. */
  function RequestFor(c: Cycle, ms: seq<Message>): LlmRequest
  {
    var speaker := Speaker(c.pair, |ms|);
    var other := Listener(c.pair, |ms|);
    var sysPrompt := ReplaceVariables(c.systemPrompt, speaker.name, other.name);
    var charDef := ReplaceVariables(speaker.definition, speaker.name, other.name);
    LlmRequest(ConfigFor(c, |ms|), speaker.model, [ChatMessage("system", Context(sysPrompt, charDef, ms))])
  }

  /** The message made of the reply of turn `k`. */
  function Reply(c: Cycle, ms: seq<Message>, k: nat, content: string): Message
  {
    Message(c.oracle.freshId(k), "assistant", content, Speaker(c.pair, |ms|).name, c.oracle.clock(2 * k))
  }

  /** The conversation after turn `k` accepted its reply. */
  function Advance(c: Cycle, rec: ConversationRecord, k: nat, content: string): ConversationRecord
  {
    rec.(messages := rec.messages + [Reply(c, rec.messages, k, content)],
         turnCount := rec.turnCount + 1,
         updatedAt := c.oracle.clock(2 * k + 1))
  }

  /** What the turns of a cycle produced: the events streamed, the requests
      sent and, when no turn failed, the conversation at the end. */
  datatype Trace = Trace(events: seq<Event>, requests: seq<LlmRequest>, finished: Option<ConversationRecord>)

  function Prepend(events: seq<Event>, requests: seq<LlmRequest>, t: Trace): Trace
  {
    Trace(events + t.events, requests + t.requests, t.finished)
  }

  /** One turn from the conversation `rec`: the event it streams, the request
      it sends and, when the reply is accepted, the conversation after it. */
  function Step(c: Cycle, rec: ConversationRecord, k: nat): (Event, LlmRequest, Option<ConversationRecord>)
  {
    var request := RequestFor(c, rec.messages);
    match c.oracle.reply(k)
    case Raised(reason) => (ErrorEvent(CallFailed + reason), request, None)
    case Returned(content) =>
      if Rejected(content) then (ErrorEvent(EmptyReply), request, None)
      else (MessageEvent(Reply(c, rec.messages, k, content.value)), request, Some(Advance(c, rec, k, content.value)))
  }

  /** Turns `k` up to `n` of a cycle, from the conversation `rec`. */
  function RunTurns(c: Cycle, rec: ConversationRecord, k: nat, n: nat): Trace
    decreases n - k
  {
    if k >= n then Trace([], [], Some(rec))
    else
      var (event, request, next) := Step(c, rec, k);
      match next
      case None => Trace([event], [request], None)
      case Some(rec') => Prepend([event], [request], RunTurns(c, rec', k + 1, n))
  }

  /** The conversation object after turns `k` up to `n` from `rec`: the
      one after the last accepted turn, whether or not a later turn failed. */
  function Reached(c: Cycle, rec: ConversationRecord, k: nat, n: nat): ConversationRecord
    decreases n - k
  {
    if k >= n then rec
    else
      var step := Step(c, rec, k);
      match step.2
      case None => rec
      case Some(rec') => Reached(c, rec', k + 1, n)
  }

  /** One iteration of `GenerateTurns` on values: a refused turn ends the
      run with the trace and conversation of the whole run, an accepted one
      keeps the loop invariant for the next turn. */
  lemma LoopStep(c: Cycle, whole: Trace, final: ConversationRecord, rec: ConversationRecord, rec': ConversationRecord,
                 events: seq<Event>, requests: seq<LlmRequest>, turn: nat, n: nat,
                 event: Event, request: LlmRequest, accepted: bool)
    requires turn < n
    requires Prepend(events, requests, RunTurns(c, rec, turn, n)) == whole
    requires Reached(c, rec, turn, n) == final
    requires (event, request, if accepted then Some(rec') else None) == Step(c, rec, turn)
    requires !accepted ==> rec' == rec
    ensures !accepted ==> Trace(events + [event], requests + [request], None) == whole && rec' == final
    ensures accepted ==>
      Prepend(events + [event], requests + [request], RunTurns(c, rec', turn + 1, n)) == whole &&
      Reached(c, rec', turn + 1, n) == final
  {
    if accepted {
      AcceptedStep(c, rec, rec', turn, n, event, request);
      PrependTwice(events, requests, event, request, RunTurns(c, rec', turn + 1, n));
    } else {
      RefusedStep(c, rec, turn, n, event, request);
    }
  }

  /** An accepted turn `k` streams its event and continues from the
      conversation after it. */
  lemma AcceptedStep(c: Cycle, rec: ConversationRecord, rec': ConversationRecord, k: nat, n: nat,
                     event: Event, request: LlmRequest)
    requires k < n
    requires (event, request, Some(rec')) == Step(c, rec, k)
    ensures RunTurns(c, rec, k, n) == Prepend([event], [request], RunTurns(c, rec', k + 1, n))
    ensures Reached(c, rec, k, n) == Reached(c, rec', k + 1, n)
  {
  }

  /** Prepending one event after others is prepending them all at once. */
  lemma PrependTwice(events: seq<Event>, requests: seq<LlmRequest>, event: Event, request: LlmRequest, t: Trace)
    ensures Prepend(events + [event], requests + [request], t) == Prepend(events, requests, Prepend([event], [request], t))
  {
    assert events + [event] + t.events == events + ([event] + t.events);
    assert requests + [request] + t.requests == requests + ([request] + t.requests);
  }

  /** A refused turn `k` ends the run on its event, with the conversation
      as it was. */
  lemma RefusedStep(c: Cycle, rec: ConversationRecord, k: nat, n: nat, event: Event, request: LlmRequest)
    requires k < n
    requires (event, request, None) == Step(c, rec, k)
    ensures RunTurns(c, rec, k, n) == Trace([event], [request], None)
    ensures Reached(c, rec, k, n) == rec
  {
  }

  /** How many turns a cycle asked for `turns` runs: one fewer when the
      conversation counts exactly one turn, none when that is negative. */
  function Iterations(turns: int, turnCount: int): nat
  {
    var toGenerate := if turnCount == 1 then turns - 1 else turns;
    if toGenerate < 0 then 0 else toGenerate
  }

  /** The conversation written to its pair's folder, and the pair's last
      conversation set to it. */
  function Save(store: Store, pairId: string, rec: ConversationRecord): Store
    requires pairId in store.pairs
  {
    store.(conversations := store.conversations[(pairId, rec.id) := rec],
           pairs := store.pairs[pairId := store.pairs[pairId].(lastConversationId := Some(rec.id))])
  }

  /** `after` is `store` with `rec` written to the folder of the pair
      `pairId` and that pair's last conversation set to it; every other
      pair, every other conversation, both endpoint configurations and the
      system prompt are as they were. */
  ghost predicate SavedOver(store: Store, after: Store, pairId: string, rec: ConversationRecord)
  {
    pairId in store.pairs && after.pairs.Keys == store.pairs.Keys &&
    after.pairs[pairId] == store.pairs[pairId].(lastConversationId := Some(rec.id)) &&
    (forall p :: p in store.pairs && p != pairId ==> after.pairs[p] == store.pairs[p]) &&
    after.conversations.Keys == store.conversations.Keys + {(pairId, rec.id)} &&
    after.conversations[(pairId, rec.id)] == rec &&
    (forall key :: key in store.conversations && key != (pairId, rec.id) ==>
      after.conversations[key] == store.conversations[key]) &&
    after.config1 == store.config1 && after.config2 == store.config2 &&
    after.systemPrompt == store.systemPrompt
  }

  lemma SaveChangesOnly(store: Store, pairId: string, rec: ConversationRecord)
    requires pairId in store.pairs
    ensures SavedOver(store, Save(store, pairId, rec), pairId, rec)
  {
  }

  datatype StreamOutcome = StreamOutcome(store: Store, events: seq<Event>, requests: seq<LlmRequest>)

  /** The whole event stream of a turn-cycle request. */
  function Stream(store: Store, convId: string, pairId: string, turns: int, oracle: Oracle): StreamOutcome
  {
    if pairId !in store.pairs then StreamOutcome(store, [ErrorEvent(PairNotFound)], [])
    else if store.config1.None? || store.config2.None? then StreamOutcome(store, [ErrorEvent(ConfigMissing)], [])
    else if (pairId, convId) !in store.conversations then StreamOutcome(store, [ErrorEvent(ConversationNotFound)], [])
    else
      var rec := store.conversations[(pairId, convId)];
      var c := Cycle(store.pairs[pairId], store.config1.value, store.config2.value, store.systemPrompt, oracle);
      var t := RunTurns(c, rec, 0, Iterations(turns, rec.turnCount));
      match t.finished
      case None => StreamOutcome(store, t.events, t.requests)
      case Some(final) => StreamOutcome(Save(store, pairId, final), t.events + [Complete(final.turnCount)], t.requests)
  }

  /** One iteration of the server's loop: pick the speaker by the parity of
      the message count, build and send the request, then either report the
      bad reply or append the message to the conversation. */
  method TakeTurn(c: Cycle, conv: Conversation, turn: nat) returns (event: Event, request: LlmRequest, accepted: bool)
    modifies conv
    ensures (event, request, if accepted then Some(conv.Record()) else None) == Step(c, old(conv.Record()), turn)
    ensures !accepted ==> conv.Record() == old(conv.Record())
  {
    var current, other, config := c.pair.character1, c.pair.character2, c.config1;
    if |conv.messages| % 2 != 0 {
      current, other, config := c.pair.character2, c.pair.character1, c.config2;
    }
    var sysPrompt := ReplaceVariables(c.systemPrompt, current.name, other.name);
    var charDef := ReplaceVariables(current.definition, current.name, other.name);
    var context := BuildContext(sysPrompt, charDef, conv.messages);
    request := LlmRequest(config, current.model, [ChatMessage("system", context)]);
    var reply := c.oracle.reply(turn);
    if reply.Raised? {
      return ErrorEvent(CallFailed + reply.reason), request, false;
    }
    if Rejected(reply.content) {
      return ErrorEvent(EmptyReply), request, false;
    }
    var message := Message(c.oracle.freshId(turn), "assistant", reply.content.value, current.name, c.oracle.clock(2 * turn));
    conv.Append(message, c.oracle.clock(2 * turn + 1));
    event, accepted := MessageEvent(message), true;
  }

  /** The server's `for turn in range(n)` loop over a loaded conversation,
      leaving it at the first bad reply. Whether or not a turn failed, the
      object ends as the conversation the run reached, which
      `RunTurnsReached` describes. */
  method GenerateTurns(c: Cycle, conv: Conversation, n: nat) returns (t: Trace)
    modifies conv
    ensures t == RunTurns(c, old(conv.Record()), 0, n)
    ensures conv.Record() == Reached(c, old(conv.Record()), 0, n)
    ensures t.finished.Some? ==> t.finished.value == conv.Record()
  {
    ghost var start := conv.Record();
    ghost var rec := start;
    ghost var whole := RunTurns(c, start, 0, n);
    ghost var final := Reached(c, start, 0, n);
    var events: seq<Event> := [];
    var requests: seq<LlmRequest> := [];
    for turn := 0 to n
      invariant rec == conv.Record()
      invariant Prepend(events, requests, RunTurns(c, rec, turn, n)) == whole
      invariant Reached(c, rec, turn, n) == final
    {
      var event, request, accepted := TakeTurn(c, conv, turn);
      LoopStep(c, whole, final, rec, conv.Record(), events, requests, turn, n, event, request, accepted);
      events, requests := events + [event], requests + [request];
      if !accepted {
        return Trace(events, requests, None);
      }
      rec := conv.Record();
    }
    t := Trace(events, requests, Some(conv.Record()));
  }

  /** The cycle as the server runs it: the lookups that end the stream with
      an error, the turn loop, then the save and the completion event. */
  method StartStream(store: Store, convId: string, pairId: string, turns: int, oracle: Oracle)
    returns (out: StreamOutcome)
    ensures out == Stream(store, convId, pairId, turns, oracle)
  {
    if pairId !in store.pairs {
      return StreamOutcome(store, [ErrorEvent(PairNotFound)], []);
    }
    if store.config1.None? || store.config2.None? {
      return StreamOutcome(store, [ErrorEvent(ConfigMissing)], []);
    }
    if (pairId, convId) !in store.conversations {
      return StreamOutcome(store, [ErrorEvent(ConversationNotFound)], []);
    }
    var conv := new Conversation.Load(store.conversations[(pairId, convId)]);
    var c := Cycle(store.pairs[pairId], store.config1.value, store.config2.value, store.systemPrompt, oracle);
    var currentTurn := conv.turnCount;
    var turnsToGenerate := turns;
    if currentTurn == 1 {
      turnsToGenerate := turns - 1;
    }
    var t := GenerateTurns(c, conv, if turnsToGenerate < 0 then 0 else turnsToGenerate);
    if t.finished.None? {
      return StreamOutcome(store, t.events, t.requests);
    }
    out := StreamOutcome(Save(store, pairId, conv.Record()), t.events + [Complete(conv.turnCount)], t.requests);
  }

  /** The messages a run of events streamed, in order. */
  function Posted(events: seq<Event>): (ms: seq<Message>)
    ensures |ms| <= |events|
    decreases |events|
  {
    if events == [] then []
    else (if events[0].MessageEvent? then [events[0].message] else []) + Posted(events[1..])
  }

  /** Consecutive turns alternate: whoever listened to one turn speaks next. */
  lemma SpeakersAlternate(pair: CharacterPair, count: nat)
    ensures Speaker(pair, count + 1) == Listener(pair, count)
    ensures Listener(pair, count + 1) == Speaker(pair, count)
    ensures Speaker(pair, count) != Listener(pair, count) <== pair.character1 != pair.character2
  {
  }

  /** A run of turns sends one request per streamed event and at most one per
      turn of its budget; it either runs every turn and streams only
      messages, or ends with exactly one error event after the messages of
      the turns that succeeded. */
  predicate WellShaped(t: Trace, budget: nat)
  {
    |t.events| == |t.requests| <= budget &&
    (t.finished.Some? ==>
      |t.requests| == budget && forall i :: 0 <= i < |t.events| ==> t.events[i].MessageEvent?) &&
    (t.finished.None? ==>
      |t.events| >= 1 && t.events[|t.events| - 1].ErrorEvent? &&
      forall i :: 0 <= i < |t.events| - 1 ==> t.events[i].MessageEvent?)
  }

  /** A turn whose reply is accepted streams a message and advances the
      conversation; any other turn streams an error. */
  lemma StepKinds(c: Cycle, rec: ConversationRecord, k: nat)
    ensures Step(c, rec, k).2.Some? ==>
      Step(c, rec, k).0.MessageEvent? &&
      Step(c, rec, k).2.value.messages == rec.messages + [Step(c, rec, k).0.message] &&
      Step(c, rec, k).2.value.turnCount == rec.turnCount + 1 &&
      Step(c, rec, k).2.value.id == rec.id &&
      Step(c, rec, k).2.value.pairId == rec.pairId &&
      Step(c, rec, k).2.value.createdAt == rec.createdAt
    ensures Step(c, rec, k).2.None? ==> Step(c, rec, k).0.ErrorEvent?
  {
  }

  lemma {:induction false} RunTurnsShape(c: Cycle, rec: ConversationRecord, k: nat, n: nat)
    requires k <= n
    ensures WellShaped(RunTurns(c, rec, k, n), n - k)
    decreases n - k
  {
    var t := RunTurns(c, rec, k, n);
    if k < n {
      var step := Step(c, rec, k);
      StepKinds(c, rec, k);
      if step.2.Some? {
        var t' := RunTurns(c, step.2.value, k + 1, n);
        RunTurnsShape(c, step.2.value, k + 1, n);
        assert t == Prepend([step.0], [step.1], t');
        ShapeAfterMessage(step.0, step.1, t', n - k);
      } else {
        assert t == Trace([step.0], [step.1], None);
      }
    }
  }

  /** The step of `RunTurnsShape` past one accepted turn. */
  lemma ShapeAfterMessage(e: Event, r: LlmRequest, t': Trace, budget: nat)
    requires e.MessageEvent? && budget >= 1
    requires WellShaped(t', budget - 1)
    ensures WellShaped(Prepend([e], [r], t'), budget)
  {
    var t := Prepend([e], [r], t');
    forall i | 1 <= i < |t.events|
      ensures t.events[i] == t'.events[i - 1]
    {
    }
  }

  /** The `i`-th turn of a trace from `rec` was spoken by the character the
      parity of the message count then picks, on that character's endpoint
      and model; its message is an assistant message with an accepted reply. */
  predicate SpeakersFollowParity(c: Cycle, rec: ConversationRecord, t: Trace)
  {
    (forall i :: 0 <= i < |t.requests| ==>
      t.requests[i].config == ConfigFor(c, |rec.messages| + i) &&
      t.requests[i].model == Speaker(c.pair, |rec.messages| + i).model) &&
    (forall i :: 0 <= i < |t.events| && t.events[i].MessageEvent? ==>
      t.events[i].message.role == "assistant" &&
      t.events[i].message.character == Speaker(c.pair, |rec.messages| + i).name &&
      !Rejected(Some(t.events[i].message.content)))
  }

  lemma {:induction false} RunTurnsSpeakers(c: Cycle, rec: ConversationRecord, k: nat, n: nat)
    ensures SpeakersFollowParity(c, rec, RunTurns(c, rec, k, n))
    decreases n - k
  {
    var t := RunTurns(c, rec, k, n);
    if k < n {
      var step := Step(c, rec, k);
      assert step.1 == RequestFor(c, rec.messages);
      assert step.0.MessageEvent? ==>
        step.0.message.character == Speaker(c.pair, |rec.messages|).name &&
        step.0.message.role == "assistant" &&
        !Rejected(Some(step.0.message.content));
      if step.2.Some? {
        var rec' := step.2.value;
        var t' := RunTurns(c, rec', k + 1, n);
        RunTurnsSpeakers(c, rec', k + 1, n);
        assert t == Prepend([step.0], [step.1], t');
        SpeakersAfterMessage(c, rec, rec', step.0, step.1, t');
      } else {
        assert t == Trace([step.0], [step.1], None);
      }
    }
  }

  /** The step of `RunTurnsSpeakers` past one accepted turn. */
  lemma SpeakersAfterMessage(c: Cycle, rec: ConversationRecord, rec': ConversationRecord, e: Event, r: LlmRequest, t': Trace)
    requires |rec'.messages| == |rec.messages| + 1
    requires r.config == ConfigFor(c, |rec.messages|) && r.model == Speaker(c.pair, |rec.messages|).model
    requires e.MessageEvent? ==>
      e.message.character == Speaker(c.pair, |rec.messages|).name &&
      e.message.role == "assistant" && !Rejected(Some(e.message.content))
    requires SpeakersFollowParity(c, rec', t')
    ensures SpeakersFollowParity(c, rec, Prepend([e], [r], t'))
  {
    var t := Prepend([e], [r], t');
    forall i | 1 <= i < |t.requests|
      ensures t.requests[i] == t'.requests[i - 1]
      ensures |rec'.messages| + (i - 1) == |rec.messages| + i
    {
    }
    forall i | 1 <= i < |t.events|
      ensures t.events[i] == t'.events[i - 1]
      ensures |rec'.messages| + (i - 1) == |rec.messages| + i
    {
    }
  }

  /** The request of the `i`-th turn of a trace from `rec` carries the
      context of the stored messages followed by the messages of the turns
      before it. */
  predicate RequestsSeeTranscript(c: Cycle, rec: ConversationRecord, t: Trace)
  {
    forall i :: 0 <= i < |t.requests| && i <= |t.events| ==>
      t.requests[i] == RequestFor(c, rec.messages + Posted(t.events[..i]))
  }

  lemma {:induction false} RunTurnsContexts(c: Cycle, rec: ConversationRecord, k: nat, n: nat)
    ensures RequestsSeeTranscript(c, rec, RunTurns(c, rec, k, n))
    decreases n - k
  {
    var t := RunTurns(c, rec, k, n);
    if k < n {
      var step := Step(c, rec, k);
      assert step.1 == RequestFor(c, rec.messages);
      if step.2.Some? {
        var rec' := step.2.value;
        var t' := RunTurns(c, rec', k + 1, n);
        RunTurnsContexts(c, rec', k + 1, n);
        assert t == Prepend([step.0], [step.1], t');
        assert step.0.MessageEvent? && rec'.messages == rec.messages + [step.0.message];
        ContextsAfterMessage(c, rec, rec', step.0, t');
      } else {
        assert t == Trace([step.0], [step.1], None);
        assert t.events[..0] == [];
        assert rec.messages + Posted([]) == rec.messages;
      }
    }
  }

  /** The step of `RunTurnsContexts` past one accepted turn. */
  lemma ContextsAfterMessage(c: Cycle, rec: ConversationRecord, rec': ConversationRecord, e: Event, t': Trace)
    requires e.MessageEvent? && rec'.messages == rec.messages + [e.message]
    requires RequestsSeeTranscript(c, rec', t')
    ensures RequestsSeeTranscript(c, rec, Prepend([e], [RequestFor(c, rec.messages)], t'))
  {
    var t := Prepend([e], [RequestFor(c, rec.messages)], t');
    forall i | 0 <= i < |t.requests| && i <= |t.events|
      ensures t.requests[i] == RequestFor(c, rec.messages + Posted(t.events[..i]))
    {
      if i == 0 {
        assert t.events[..0] == [];
        assert rec.messages + Posted([]) == rec.messages;
      } else {
        PostedAfterMessage(e, t'.events, i);
        assert t.requests[i] == t'.requests[i - 1];
        assert rec'.messages + Posted(t'.events[..i - 1]) == rec.messages + Posted(t.events[..i]);
      }
    }
  }

  /** A prefix of a run that starts with a message posts that message first. */
  lemma PostedAfterMessage(event: Event, rest: seq<Event>, i: nat)
    requires event.MessageEvent? && 1 <= i <= |rest| + 1
    ensures Posted(([event] + rest)[..i]) == [event.message] + Posted(rest[..i - 1])
  {
    var before := ([event] + rest)[..i];
    assert before[0] == event && before[1..] == rest[..i - 1];
  }

  /** When every turn succeeds, the conversation at the end is the one at the
      start with the streamed messages appended and one turn counted per
      turn run; its identity is unchanged and consistency is preserved. */
  predicate FinishesFrom(rec: ConversationRecord, t: Trace, budget: nat)
  {
    t.finished.Some? ==>
      var f := t.finished.value;
      f.messages == rec.messages + Posted(t.events) &&
      f.turnCount == rec.turnCount + budget &&
      f.id == rec.id && f.pairId == rec.pairId && f.createdAt == rec.createdAt &&
      (rec.Consistent() ==> f.Consistent())
  }

  lemma {:induction false} RunTurnsFinal(c: Cycle, rec: ConversationRecord, k: nat, n: nat)
    requires k <= n
    ensures FinishesFrom(rec, RunTurns(c, rec, k, n), n - k)
    decreases n - k
  {
    var t := RunTurns(c, rec, k, n);
    if k == n {
      assert rec.messages + [] == rec.messages;
    } else {
      var step := Step(c, rec, k);
      StepKinds(c, rec, k);
      if step.2.Some? {
        var t' := RunTurns(c, step.2.value, k + 1, n);
        RunTurnsFinal(c, step.2.value, k + 1, n);
        assert t == Prepend([step.0], [step.1], t');
        FinalAfterMessage(rec, step.2.value, step.0, step.1, t', n - k);
      } else {
        assert t == Trace([step.0], [step.1], None);
      }
    }
  }

  /** The step of `RunTurnsFinal` past one accepted turn. */
  lemma FinalAfterMessage(rec: ConversationRecord, rec': ConversationRecord, e: Event, r: LlmRequest, t': Trace, budget: nat)
    requires e.MessageEvent? && budget >= 1
    requires rec'.messages == rec.messages + [e.message] && rec'.turnCount == rec.turnCount + 1
    requires rec'.id == rec.id && rec'.pairId == rec.pairId && rec'.createdAt == rec.createdAt
    requires FinishesFrom(rec', t', budget - 1)
    ensures FinishesFrom(rec, Prepend([e], [r], t'), budget)
  {
    var t := Prepend([e], [r], t');
    assert t.events == [e] + t'.events;
    assert t.events[1..] == t'.events;
    assert Posted(t.events) == [e.message] + Posted(t'.events);
  }

  /** The conversation reached by a run holds the stored messages followed
      by those streamed, counts one turn per streamed message and keeps its
      identity; a run that finished ends on it. */
  predicate ReachedFrom(rec: ConversationRecord, t: Trace, f: ConversationRecord)
  {
    f.messages == rec.messages + Posted(t.events) &&
    f.turnCount == rec.turnCount + |Posted(t.events)| &&
    f.id == rec.id && f.pairId == rec.pairId && f.createdAt == rec.createdAt &&
    (t.finished.Some? ==> t.finished.value == f)
  }

  lemma {:induction false} RunTurnsReached(c: Cycle, rec: ConversationRecord, k: nat, n: nat)
    ensures ReachedFrom(rec, RunTurns(c, rec, k, n), Reached(c, rec, k, n))
    decreases n - k
  {
    var t := RunTurns(c, rec, k, n);
    if k >= n {
      assert rec.messages + [] == rec.messages;
    } else {
      var step := Step(c, rec, k);
      StepKinds(c, rec, k);
      if step.2.Some? {
        var t' := RunTurns(c, step.2.value, k + 1, n);
        RunTurnsReached(c, step.2.value, k + 1, n);
        assert t == Prepend([step.0], [step.1], t');
        assert Reached(c, rec, k, n) == Reached(c, step.2.value, k + 1, n);
        ReachedAfterMessage(rec, step.2.value, step.0, step.1, t', Reached(c, rec, k, n));
      } else {
        assert t == Trace([step.0], [step.1], None);
        assert Reached(c, rec, k, n) == rec;
        assert Posted(t.events) == [] + Posted([]);
        assert rec.messages + [] == rec.messages;
      }
    }
  }

  /** The step of `RunTurnsReached` past one accepted turn. */
  lemma ReachedAfterMessage(rec: ConversationRecord, rec': ConversationRecord, e: Event, r: LlmRequest, t': Trace, f: ConversationRecord)
    requires e.MessageEvent?
    requires rec'.messages == rec.messages + [e.message] && rec'.turnCount == rec.turnCount + 1
    requires rec'.id == rec.id && rec'.pairId == rec.pairId && rec'.createdAt == rec.createdAt
    requires ReachedFrom(rec', t', f)
    ensures ReachedFrom(rec, Prepend([e], [r], t'), f)
  {
    var t := Prepend([e], [r], t');
    assert t.events[1..] == t'.events;
    assert Posted(t.events) == [e.message] + Posted(t'.events);
  }

  /** How many turns a cycle runs never exceeds the turns asked for; after a
      starting message it is one fewer. */
  lemma IterationsBound(turns: int, turnCount: int)
    ensures Iterations(turns, turnCount) <= (if turns < 0 then 0 else turns)
    ensures turnCount == 1 && turns >= 1 ==> Iterations(turns, turnCount) == turns - 1
    ensures turnCount != 1 && turns >= 0 ==> Iterations(turns, turnCount) == turns
  {
  }

  /** Every stream ends with exactly one terminal event after its messages,
      sends at most `turns` requests, and leaves the store untouched when it
      ends with an error. */
  lemma StreamEnds(store: Store, convId: string, pairId: string, turns: int, oracle: Oracle)
    ensures var out := Stream(store, convId, pairId, turns, oracle);
      |out.events| >= 1 &&
      |out.requests| <= (if turns < 0 then 0 else turns) &&
      (forall i :: 0 <= i < |out.events| - 1 ==> out.events[i].MessageEvent?) &&
      (out.events[|out.events| - 1].Complete? || out.events[|out.events| - 1].ErrorEvent?) &&
      (out.events[|out.events| - 1].ErrorEvent? ==> out.store == store)
  {
    if pairId in store.pairs && store.config1.Some? && store.config2.Some? && (pairId, convId) in store.conversations {
      var rec := store.conversations[(pairId, convId)];
      var c := Cycle(store.pairs[pairId], store.config1.value, store.config2.value, store.systemPrompt, oracle);
      RunTurnsShape(c, rec, 0, Iterations(turns, rec.turnCount));
      IterationsBound(turns, rec.turnCount);
    }
  }

  /** A stream that completes has run its whole budget and saved the loaded
      conversation, under its own id, with the streamed messages appended;
      the completion event reports the saved turn count, which equals the
      turns asked for when the conversation was new; the pair's last
      conversation is the saved one and no other conversation changes. */
  lemma StreamCompletes(store: Store, convId: string, pairId: string, turns: int, oracle: Oracle)
    ensures var out := Stream(store, convId, pairId, turns, oracle);
      out.events[|out.events| - 1].Complete? ==>
        pairId in store.pairs && (pairId, convId) in store.conversations &&
        var rec := store.conversations[(pairId, convId)];
        |out.requests| == Iterations(turns, rec.turnCount) &&
        (pairId, rec.id) in out.store.conversations &&
        var saved := out.store.conversations[(pairId, rec.id)];
        saved.id == rec.id &&
        saved.messages == rec.messages + Posted(out.events) &&
        saved.turnCount == rec.turnCount + |out.requests| &&
        out.events[|out.events| - 1].totalTurns == saved.turnCount &&
        ((rec.turnCount == 0 || rec.turnCount == 1) && turns >= 1 ==> saved.turnCount == turns) &&
        (rec.Consistent() ==> saved.Consistent()) &&
        SavedOver(store, out.store, pairId, saved)
  {
    StreamEnds(store, convId, pairId, turns, oracle);
    if pairId in store.pairs && store.config1.Some? && store.config2.Some? && (pairId, convId) in store.conversations {
      var rec := store.conversations[(pairId, convId)];
      var c := Cycle(store.pairs[pairId], store.config1.value, store.config2.value, store.systemPrompt, oracle);
      var n := Iterations(turns, rec.turnCount);
      var t := RunTurns(c, rec, 0, n);
      RunTurnsShape(c, rec, 0, n);
      RunTurnsFinal(c, rec, 0, n);
      if t.finished.Some? {
        SaveChangesOnly(store, pairId, t.finished.value);
        assert Posted(t.events + [Complete(t.finished.value.turnCount)]) == Posted(t.events) by {
          PostedAppend(t.events, [Complete(t.finished.value.turnCount)]);
        }
      }
    }
  }

  lemma {:induction false} PostedAppend(a: seq<Event>, b: seq<Event>)
    ensures Posted(a + b) == Posted(a) + Posted(b)
    decreases |a|
  {
    if a == [] {
      assert a + b == b;
    } else {
      var ab := a + b;
      assert ab[0] == a[0];
      assert ab[1..] == a[1..] + b;
      PostedAppend(a[1..], b);
      assert Posted(ab) == (if a[0].MessageEvent? then [a[0].message] else []) + Posted(a[1..] + b);
    }
  }

  /** A new conversation as the server seeds it: fresh ids and clock
      readings come from `ids` and `clock`, in the order the server asks
      for them; a non-empty starting message of character 1 becomes its
      first message and counts as one turn. */
  function Seeded(pair: CharacterPair, pairId: string, ids: nat -> string, clock: nat -> string): ConversationRecord
  {
    var empty := ConversationRecord(ids(0), pairId, clock(0), clock(1), 0, []);
    var start := pair.character1.startingMessage;
    if start.Some? && start.value != "" then
      empty.(messages := [Message(ids(1), "assistant", start.value, pair.character1.name, clock(2))],
             turnCount := 1, updatedAt := clock(3))
    else empty
  }

  /** What creating a conversation answers, and the store after it. */
  function Create(store: Store, pairId: string, ids: nat -> string, clock: nat -> string): (Result<string, HttpError>, Store)
  {
    if pairId !in store.pairs then (Failure(HttpError(404, PairNotFound)), store)
    else
      var rec := Seeded(store.pairs[pairId], pairId, ids, clock);
      (Success(rec.id), Save(store, pairId, rec))
  }

  /** A seeded conversation is consistent, belongs to its pair, and holds
      either nothing or exactly the starting message by character 1, so the
      next turn is character 2's exactly when a starting message was given. */
  lemma SeededShape(pair: CharacterPair, pairId: string, ids: nat -> string, clock: nat -> string)
    ensures var rec := Seeded(pair, pairId, ids, clock);
      rec.Consistent() && rec.pairId == pairId && rec.createdAt == clock(0) &&
      (rec.turnCount == 1 <==> pair.character1.startingMessage.Some? && pair.character1.startingMessage.value != "") &&
      (rec.turnCount == 0 || rec.turnCount == 1) &&
      (rec.turnCount == 1 ==>
        rec.messages[0].character == pair.character1.name &&
        rec.messages[0].content == pair.character1.startingMessage.value &&
        rec.messages[0].role == "assistant" &&
        Speaker(pair, |rec.messages|) == pair.character2)
  {
  }

  /** Creating a conversation for a missing pair is a 404 and writes
      nothing; otherwise the new conversation is stored under its fresh id
      and becomes the pair's last conversation. */
  lemma CreateOutcome(store: Store, pairId: string, ids: nat -> string, clock: nat -> string)
    ensures var (r, after) := Create(store, pairId, ids, clock);
      (pairId !in store.pairs <==> r.Failure?) &&
      (r.Failure? ==> r.error.status == 404 && after == store) &&
      (r.Success? ==>
        r.value == ids(0) && (pairId, ids(0)) in after.conversations &&
        SavedOver(store, after, pairId, Seeded(store.pairs[pairId], pairId, ids, clock)))
  {
    if pairId in store.pairs {
      SaveChangesOnly(store, pairId, Seeded(store.pairs[pairId], pairId, ids, clock));
    }
  }

  /** The endpoint as the server runs it: look up the pair, build the empty
      conversation, seed the starting message, save. */
  method CreateConversation(store: Store, pairId: string, ids: nat -> string, clock: nat -> string)
    returns (r: Result<string, HttpError>, after: Store)
    ensures (r, after) == Create(store, pairId, ids, clock)
  {
    if pairId !in store.pairs {
      return Failure(HttpError(404, PairNotFound)), store;
    }
    var pair := store.pairs[pairId];
    var conv := new Conversation.Create(ids(0), pairId, clock(0), clock(1));
    if pair.character1.startingMessage.Some? && pair.character1.startingMessage.value != "" {
      var startingMsg := Message(ids(1), "assistant", pair.character1.startingMessage.value, pair.character1.name, clock(2));
      assert conv.messages == [];
      conv.messages := conv.messages + [startingMsg];
      assert conv.messages == [startingMsg];
      conv.turnCount := 1;
      conv.updatedAt := clock(3);
    }
    after := Save(store, pairId, conv.Record());
    r := Success(conv.id);
  }
}

=== FILE: wrappers.dfy ===
/** Optional values and results with an error, used wherever the source
    returns `None`, a falsy value, or an error response. */
module Wrappers {

  datatype Option<+T> = None | Some(value: T)

  datatype Result<+R, +E> = Success(value: R) | Failure(error: E)
}
